=== FILE: README.md ===
# gosqueak, modelled in Dafny

gosqueak is a small end-to-end-encrypted chat backend written in Go. It has:

- a bearer-token format: three raw base64url segments (RFC 7515, section 7.1);
- an authentication service with two diverging versions. It registers users, logs them in with a password, and issues refresh tokens and short-lived access tokens. It also revokes refresh tokens;
- a key-exchange service that hands out one-time prekeys;
- a message service. It stores messages for recipients who are offline and relays them live over a socket to recipients who are connected;
- an event socket with an opcode dispatch table.

This project models that core as pure Dafny functions and a few methods:

- **Stores.** The SQL tables are maps or sequences of rows, plus a flag saying whether the database answers at all.
- **Handlers.** Each handler is a function from (request, store, clock) to (status, store afterwards).
- **Sockets.** A JSON stream is a sequence of frames, one frame per value written.
- **Opaque parts.** Cryptography, JSON marshalling and password hashing are function-valued parameters. The only properties assumed of them are named predicates: `Actors.Sound`, `Jwt.BodyRoundTrips` and `Framing.RoundTrips`.

Modules, in dependency order:

- `Wrappers`
- `Strings`, which models `strings.Split` and `strings.Join`
- `Base64Url`, raw base64url written out concretely
- `Jwt` and `Actors`
- `AuthDb`, `AuthRequests`, `AuthApi` (services/auth/api/api.go) and `AuthServer` (services/auth/server.go)
- `Table`, the uniqueness constraint and the multi-statement INSERT shared by both message-side stores
- `PrekeyDb`, `JwtGate` and `PrekeyApi`
- `MessageDb`, `Framing`, `ChatSocket`, `Relay` and `MessageApi`
- `Socket` and `EventMux`

The code behaves as follows, which is easy to misread:

- `GetMessages` does not delete the messages it returns.
- Which prekey `GetPreKey` hands out is whatever SQLite returns first, not a chosen one.
- `ReadEvent` never reports an error.
- A batch insert keeps the rows inserted before a failing statement. It is not all-or-nothing.

One deliberate departure: the services call `StringifyJwt`, and the `StringifyJwt` in jwt/actors.go produces six dot-separated pieces that no parser accepts (first row under "## Findings"). The services' source is written against a token package that is not part of this model; it has `MintToken`, `Body.Subject` and a one-argument `FromString`. So the service models stringify with the corrected three-segment `Actors.Stringify`. `AuthApi.AsWrittenLoginTokenRefused`, `AuthServer.AsWrittenTokenRefused` and `JwtGate.AsWrittenTokenRefused` state what the as-written serializer would do to them.

## Model

| member | source | states |
|---|---|---|
| Jwt.New | jwt/jwt.go:34-39 | A new token carries the fixed header {RS256, JWT} and the given subject. |
| Jwt.String | jwt/jwt.go:42-56 | The wire text splits at `.` into exactly three segments: the encoded header bytes, the encoded body bytes and the encoded MAC, in that order. |
| Jwt.FromString | jwt/jwt.go:69-103 | Anything but three segments is a parse error. So is an undecodable body or signature segment, and so is a body that does not unmarshal. When everything parses, the result succeeds exactly when the MAC over `New(subject)` matches the decoded signature. A success is `New` of the body's subject; otherwise the error is the verify error. Every error comes with the zero token. |
| Jwt.StringRoundTrip | jwt/jwt_test.go:9-18 | `FromString(New(sub).String(k), k)` gives back `New(sub)` with no error, assuming JSON body round-trips. |
| Jwt.WrongMacIsVerifyError | jwt/jwt.go:96-100 | A well-formed string whose MAC does not match yields the verify error, not the parse error. |
| Jwt.HeaderSegmentIgnored | jwt/jwt.go:81-84 | Replacing the header segment by any dot-free text, valid base64 or not, changes neither parser's result. |
| Jwt.Parse | services/ecdh/api/api.go:122 | The one-argument parser the services call. A three-segment split is necessary. Errors carry the zero token. A success always has the default header. |
| Jwt.ParseSerialize | jwt/jwt.go:83-96 | Parsing the three-segment form of (header, body, signature) gives back the body and signature under the default header. |
| Base64Url.Encode | jwt/jwt.go:49-53 | The output uses only the URL-safe alphabet, has no padding, and has length ceil(8n/6). It never leaves a one-character final group. |
| Base64Url.Decode | jwt/jwt.go:83-84 | Succeeds exactly when the input, with newlines removed, is all alphabet characters and does not leave a one-character final group. |
| Base64Url.DecodeEncode | jwt/jwt.go:83-84 | Decoding what was encoded gives back the same bytes, for every byte string. |
| Base64Url.PaddingRejected | jwt/jwt.go:86-88 | Any text containing `=` fails to decode, so padded segments are parse errors. |
| Base64Url.EncodeHasNoDot | jwt/jwt.go:55 | Encoded text never contains `.`, so joining segments with `.` can be split back. |
| Strings.Split | jwt/jwt.go:76 | The pieces are separator-free, there is at least one, and joining them with the separator gives back the input. |
| Strings.SplitJoin | jwt/jwt.go:76 | Splitting the join of one or more separator-free parts gives the parts back. |
| Actors.Verify | jwt/actors.go:20-30 | False when expired, and false when the audience identifier differs from `aud`, whatever the signature. Otherwise it equals the signature check over header bytes followed by body bytes. |
| Actors.Mint | services/auth/api/api.go:120-124 | A minted token has the default header and the given sub, aud and jti. Its `iss` is the issuer's identifier. It counts as expired exactly from now + ttl on. |
| Actors.StringifyJwt | jwt/actors.go:45-58 | The as-written text is three dots followed by the corrected three-segment form that `Actors.Stringify` gives. |
| Actors.StringifyJwtHasSixSegments | jwt/actors.go:45-58 | The as-written output splits into six segments, the first three empty, and `Parse` rejects it with a parse error. |
| Actors.Stringify | jwt/actors.go:45-58 | The corrected output splits into the three encoded segments: header, body, and the issuer's signature over header bytes followed by body bytes. |
| Actors.StringifyParsesBack | jwt/actors.go:49-55 | Parsing the corrected output gives back the body, with the issuer's signature over exactly the bytes `Verify` checks. |
| Actors.IssuedTokenVerifies | jwt/actors.go:20-30 | Assume signatures are sound. Then an audience holding the issuer's public key accepts a stringified token that is unexpired and addressed to it. |
| Actors.MintedTokenLifetime | jwt/actors.go:20-30 | Assume signatures are sound. Mint a token for the audience that holds the issuer's public key and identifier, then stringify and re-parse it. From minting time on, it verifies exactly while the clock is before now + ttl. |
| Actors.OtherAudienceRejects | jwt/actors.go:21-23 | An audience whose identifier differs from `aud` rejects the token, whatever its signature. |
| AuthDb.UserExists | services/auth/database/db.go:62-73 | (true, nil) exactly for a stored uid. A backend failure gives (false, error). |
| AuthDb.RegisterUser | services/auth/database/db.go:75-102 | A taken uid gives the user-exists error. It succeeds exactly when the store answers and the uid is free, and then exactly the new row is added. Every error leaves the store unchanged, and primary-key validity is kept. |
| AuthDb.VerifyPassword | services/auth/database/db.go:106-134 | An unknown user gives the no-such-user error. Otherwise the result is true exactly when hashing the password with the stored salt gives the stored hash. |
| AuthDb.SetRefreshToken | services/auth/database/db.go:137-141 | Overwrites only the uid's token (last write wins). An unknown uid changes nothing and is not an error. |
| AuthDb.DiscardRefreshToken | services/auth/database/db.go:145-149 | Every row whose token equals the argument gets the empty token. No other row or column changes. |
| AuthDb.UserHasRefreshToken | services/auth/database/db.go:152-167 | (false, nil) for an unknown uid. Otherwise the result is whether the stored token equals the presented one. |
| AuthDb.DiscardIdempotent | services/auth/database/db.go:145-149 | Discarding the same token twice is the same as discarding it once. |
| AuthDb.Supersession | services/auth/database/db.go:137-167 | After Set(t1) then Set(t2), t1 is no longer current and t2 is. Discarding a non-empty t2 revokes it. |
| AuthDb.RegisterThenVerify | services/auth/database/db_test.go:54-80 | A registered user verifies with its password, exists, and holds the empty token. Another password verifies exactly when it hashes the same. |
| AuthDb.RegisterTwice | services/auth/database/db.go:75-80 | Registering a username a second time is refused and leaves the store unchanged. |
| AuthRequests.HandleRegisterUser | services/auth/api/api.go:69-89 | An undecodable body gives 400. The answer is 200 exactly when registration succeeds. Every other status leaves the store unchanged. |
| AuthApi.AuthRefreshToken | services/auth/api/api.go:162-197 | The wrapped handler runs exactly when parse, `JwtIsValid`, expiry and currency all pass. A parse or validity failure gives 401 with the store unchanged. An expired token is discarded and gets 401. Past those checks, a store that does not answer gives 500, and a token that is not current gives 401, both with the store unchanged. |
| AuthApi.HandlePasswordLogin | services/auth/api/api.go:91-134 | 400, 404 for an unknown user and 401 for a wrong password all leave the store unchanged. On success, the same token string is both stored as the user's refresh token and returned. |
| AuthApi.HandleMakeJwt | services/auth/api/api.go:136-149 | An empty `aud` gives 400. Otherwise the answer is a token for the refresh token's subject and the requested audience with a 5-second lifetime. The store is never changed. |
| AuthApi.HandleLogout | services/auth/api/api.go:151-157 | The presented token string is discarded. The answer is 200 exactly when the store answers. |
| AuthApi.Serve | services/auth/api/api.go:47-53 | `/jwt` and `/logout` always go through `AuthRefreshToken`. A request that fails its checks never gets 200. |
| AuthApi.LogoutRevokes | services/auth/api/server_test.go:95-112 | After `/logout`, the same token gets 401 from `/jwt`, at any later time. |
| AuthApi.LoginThenMakeJwt | services/auth/api/server_test.go:72-93 | A refresh token returned by login can be exchanged, while unexpired, for an access token carrying the user's uid and the requested audience. |
| AuthApi.AsWrittenLoginTokenRefused | services/auth/api/api.go:120-126 | With the as-written `StringifyJwt`, the refresh token a login hands out gets 401 from `/jwt` and `/logout`, whatever the table holds. |
| AuthServer.HandleMakeJwt | services/auth/server.go:133-175 | A parse failure, then a signature failure, give 401 with the store unchanged, whatever the store's state. Next, an expired token is discarded and gets 401. Past those checks, a store that does not answer gives 500 and a token that is not current gives 401. Only then is the audience read: missing gives 400, otherwise a 5-second token for the token's subject. |
| AuthServer.BadTokenBeforeMissingAudience | services/auth/server.go:134-170 | An unparseable token with a missing audience gets 401, not 400. |
| AuthServer.HandleLogout | services/auth/server.go:177-197 | Only parse and signature are checked. The token is then discarded even when expired or not current. Anything else gets 401 with the store unchanged. |
| AuthServer.LogoutIdempotent | services/auth/server.go:177-197 | Logging out twice with the same token has the same effect as once. |
| AuthServer.Serve | services/auth/server.go:45-51 | `/register`, `/login`, `/jwt` and `/logout` go to their handlers, with `/login` the as-written login. An unparseable token on `/jwt` or `/logout` gets 401 with the store unchanged. A successful login returns one stringification and stores another. |
| AuthServer.AsWrittenTokenRefused | jwt/actors.go:45-58 | A token string in the as-written six-piece form gets 401 from `/jwt` and `/logout`, and the store is unchanged. |
| AuthServer.HandlePasswordLogin | services/auth/server.go:89-131 | The as-written login stores one stringification and returns another. The error paths give 400, 404 and 401 with the store unchanged. |
| AuthServer.LoginReturnsUnstoredToken | services/auth/server.go:123-126 | When the two signing salts give different signatures, the returned token is not the current one, and `/jwt` refuses it. |
| AuthServer.HandlePasswordLoginOnce | services/auth/server.go:118-126 | The corrected login: the string returned on success is the user's current refresh token. |
| Table.InsertEach | services/ecdh/database/db.go:62-74 | The rows afterwards are the old rows plus a prefix of the batch. No error means the whole batch was added, which happens exactly when the result satisfies the constraint. The constraint is preserved in every case. |
| Table.ConflictBreaksUnique | services/ecdh/database/db.go:25-33 | A batch whose first row clashes with a stored row cannot be inserted without breaking the constraint. |
| PrekeyDb.KeysOfUnique | services/ecdh/database/db.go:25-33 | One owner's keys are themselves free of clashes when the table is. |
| PrekeyDb.GetPreKey | services/ecdh/database/db.go:42-60 | A failing store gives a backend error, and an owner with no keys gives no-rows; both leave the table unchanged. A success returns the owner's first key, whose row is then gone. The owner's keys lose exactly that one and every other owner's keys are unchanged. |
| PrekeyDb.PostPreKeys | services/ecdh/database/db.go:62-74 | One INSERT per key, stopping at the first clash. Earlier inserts stay. Success happens exactly when `key` and `keyId` stay unique. |
| PrekeyDb.PostThenKeys | services/ecdh/database/db.go:62-74 | After a successful upload, an owner's keys are its old ones followed by the uploaded ones it owns. |
| PrekeyDb.FetchMany | services/ecdh/database/db.go:42-60 | Fetch n times, with n no more than the owner's keys. The i-th fetch returns the owner's i-th key. The owner keeps the rest and other owners keep all of theirs. |
| PrekeyDb.FetchAllThenNone | services/ecdh/database/db.go:42-60 | After N fetches for an owner with N keys, it has none left and the next fetch fails with no-rows. |
| PrekeyDb.FetchedKeysDistinct | services/ecdh/database/db.go:25-33 | The keys handed out to successive fetchers are pairwise distinct. |
| JwtGate.Admit | services/ecdh/api/api.go:120-133 | The handler runs exactly when the token parses, `JwtIsValid` accepts it, and it is unexpired. It then sees the parsed token. |
| JwtGate.IssuedTokenAdmitted | services/message/api/api.go:109-122 | A token the issuer stringified passes the gate exactly until its expiry, and the handler sees its claims. |
| JwtGate.AsWrittenTokenRefused | jwt/actors.go:45-58 | No token string in the as-written six-piece form passes the gate, at any time. |
| PrekeyApi.HandleGet | services/ecdh/api/api.go:57-83 | An empty `fromUid` gives 400. The answer is 200 exactly when the store answers and the user has a key. That key is the user's first remaining key, and it is handed out and used up. The user's other keys, every other user's keys and the store's state are unchanged. Any store error gives 500 with the table unchanged. |
| PrekeyApi.HandlePost | services/ecdh/api/api.go:85-113 | An undecodable or empty list gives 400. The answer is 200 exactly when the first key names the caller and the insert succeeds, and then exactly the batch is appended. A 500 leaves the keys inserted before the failing statement, and no later ones. |
| PrekeyApi.HandlePreKey | services/ecdh/api/api.go:53-118 | GET and POST go to their handlers. Every other method gets 405 with the table unchanged. |
| PrekeyApi.ForeignKeyAccepted | services/ecdh/api/api.go:102-106 | A batch whose first key is the caller's and whose second key names another user is accepted, and that user gains the foreign key. |
| PrekeyApi.HandlePostChecked | services/ecdh/api/api.go:85-113 | The corrected POST succeeds exactly when every key names the caller and the insert succeeds. A 500 leaves the keys inserted before the failing statement. No other user's keys ever change. |
| PrekeyApi.Serve | services/ecdh/api/api.go:39-41 | The as-written route: a refused token gets 401 with the table unchanged, and an admitted request goes to the as-written handler. An admitted POST succeeds exactly when the batch is non-empty, its first key names the token's subject, and the insert succeeds. |
| PrekeyApi.ServeAcceptsForeignKey | services/ecdh/api/api.go:102-106 | Through the whole as-written route, an admitted caller whose batch starts with its own key stores a key for another user. |
| PrekeyApi.ServeChecked | services/ecdh/api/api.go:39-41 | The route with the corrected POST: a refused token gets 401 with the table unchanged, and a POST never changes the keys of anyone but the token's subject. |
| PrekeyApi.HandlePreKeyChecked | services/ecdh/api/api.go:53-118 | The method dispatch with the corrected POST: GET and POST go to their handlers, and other methods get 405. |
| PrekeyApi.OwnUploadLeavesOthers | services/ecdh/database/db.go:62-74 | Uploading keys that all name one user changes no other user's keys, whether or not the insert succeeds. |
| PrekeyApi.UploadStoresAll | services/ecdh/api/api.go:85-113 | A user with no keys uploads fresh keys that all name it. The POST answers 200, and the user's keys are exactly the uploaded ones. |
| PrekeyApi.DrainOwner | services/ecdh/api/api.go:57-83 | Fetching as many times as a user has keys hands out its keys in order, after which GET answers 500. |
| PrekeyApi.UploadThenDrain | services/ecdh/database/db.go:42-74 | Take a user with no keys who uploads N fresh keys. Others can then fetch exactly those keys in upload order, after which GET answers 500. |
| MessageDb.InboxMembers | services/message/database/db.go:46-47 | A recipient's inbox holds exactly the rows addressed to it. |
| MessageDb.GetMessages | services/message/database/db.go:43-70 | A query failure gives an error. Otherwise the result is the recipient's stored messages in order, or, when a scan fails, the prefix read so far, still with no error. The table is only read. |
| MessageDb.PostMessages | services/message/database/db.go:72-83 | One INSERT per message, stopping at the first repeated `private`. Earlier inserts stay. Success happens exactly when `private` stays unique. |
| MessageDb.PostThenInbox | services/message/database/db.go:72-83 | After a successful post, each recipient's inbox is its old one followed by the messages just posted to it. |
| MessageDb.InboxAppend | services/message/database/db.go:46-47 | The inbox of two row sequences joined is the first's inbox followed by the second's. |
| MessageDb.RepostRefused | services/message/database/db.go:27-34 | Posting a message whose `private` is already stored fails and changes nothing. |
| MessageApi.HandleGet | services/message/api/api.go:56-68 | A store error gives 500. Otherwise 200 with the caller's inbox, or a prefix of it when a scan fails. The table is unchanged. |
| MessageApi.HandlePost | services/message/api/api.go:70-90 | An undecodable or empty list gives 400. The answer is 200 exactly when the insert succeeds, and then every recipient's inbox grows by its messages. A 500 leaves the messages inserted before the failing statement, and no later ones. Any recipient may be named. |
| MessageApi.HandleMessage | services/message/api/api.go:52-95 | GET reads only the token subject's messages. POST goes to its handler. Every other method gets 405. |
| MessageApi.ServeMessages | services/message/api/api.go:109-122 | A refused token gets 401 and the table is unchanged. An admitted GET answers with the subject's inbox. |
| MessageApi.RepostRejected | services/message/database/db.go:27-34 | Re-posting a batch that was stored answers 500 and inserts nothing. |
| MessageApi.PostedMessageReadable | services/message/api/api_test.go:134-169 | After a successful post, each message for a user is in that user's inbox, after the messages stored before. |
| MessageApi.UpgradeConnection | services/message/api/api.go:97-107 | A failed hijack gives 500. Otherwise the connection runs a relay session under the token's subject, which ends with the subject unregistered and the socket closed. |
| MessageApi.ServeWs | services/message/api/api.go:41-44 | `/ws` refuses a bad token with 401. An admitted one runs the session for its subject. |
| Framing.Receive | services/message/chat/socket.go:28-31 | A closed socket gives the Closed error. An exhausted stream gives end-of-stream. Otherwise the next frame is consumed, giving its value or, with the zero value, a malformed-frame error. |
| Framing.Send | services/message/chat/socket.go:32-34 | An open socket gains exactly one frame, the encoded value. A closed one gives an error. |
| Framing.DecodedPrefix | services/message/chat/socket.go:35-45 | The values of the longest run of decodable frames at the front of a stream. |
| Framing.ReceiveUntilError | services/message/chat/socket.go:35-45 | The loop hands on exactly the decodable run at the front of the stream, in order, and stops just past the first frame that fails. |
| Framing.WrittenValuesReadBack | services/message/chat/socket_test.go:54-82 | If the codec round-trips, values written in order are read back in order up to the first undecodable frame. |
| ChatSocket.ReadMessage | services/message/chat/socket.go:28-31 | Succeeds exactly on an open socket whose next frame decodes, and returns that message. Otherwise the zero message comes with the error. |
| ChatSocket.WriteMessage | services/message/chat/socket.go:32-34 | An open socket gains the encoded message. A closed one gives an error. |
| ChatSocket.WriteThenRead | services/message/chat/socket_test.go:31-52 | What one end writes, the other end reads back unchanged. |
| ChatSocket.ChannelMessages | services/message/chat/socket.go:35-45 | Forwards the decodable messages at the front of the stream, in stream order, and stops at the first read error. A closed socket forwards nothing. |
| ChatSocket.PeerMessagesChannelled | services/message/chat/socket_test.go:54-82 | A peer that writes some messages and hangs up has exactly those forwarded, in order. |
| ChatSocket.CloseSocket | services/message/chat/socket.go:46-48 | After closing, every read fails with the Closed error. |
| Socket.GetStr | socket/socket.go:10-13 | The stored string when the map is non-nil and the key holds a string, otherwise "". |
| Socket.Set | socket/socket.go:14-17 | On a nil map the assignment panics (None). Otherwise the key holds the value and every other key is unchanged. |
| Socket.SetThenGetStr | socket/socket.go:10-17 | `Set` succeeds exactly on a non-nil map. There, a string that was set is read back, and other keys read as before. |
| Socket.ZeroEventDataIsNil | socket/socket.go:19-22 | The zero event's data is a nil map: every key reads as "", and setting a key panics. |
| Socket.ReadEvent | socket/socket.go:37-40 | The as-written read always reports a nil error, and a failed read gives the zero event. |
| Socket.WriteEvent | socket/socket.go:41-43 | An open socket gains the encoded event. |
| Socket.ListenAsWritten | socket/socket.go:44-54 | Run for any number of rounds, the as-written `Listen` hands on exactly one event per round: its exit branch never fires, whatever the socket holds. |
| Socket.ListenNeverStops | socket/socket.go:44-54 | After the peer's events and hang-up, the as-written `Listen` hands on those events and then the zero event in every further round, however many rounds are run. |
| Socket.ReadEventChecked | socket/socket.go:37-40 | The corrected read reports an error exactly when nothing decodable is next. |
| Socket.ListenChecked | socket/socket.go:44-54 | The corrected `Listen` hands on the decodable events at the front of the stream and returns. |
| Socket.ListenCheckedHearsPeer | socket/socket.go:44-54 | With the corrected read, exactly the events the peer sent are handed on, in order, before `Listen` returns. |
| EventMux.NewMux | socket/mux.go:9-11 | No opcode has a handler. |
| EventMux.On | socket/mux.go:13-15 | The opcode gets the new handler, replacing any earlier one. Every other opcode keeps its handler. |
| EventMux.HandleMessage | socket/mux.go:17-21 | The registered handler is called once with the event. An unregistered opcode calls nothing. |
| EventMux.OnThenHandle | socket/mux.go:13-21 | Registering one opcode changes dispatch for that opcode only. |
| EventMux.NewMuxIgnores | socket/mux.go:9-21 | A fresh multiplexer calls no handler for any event. |
| EventMux.LaterHandlerWins | socket/mux.go:13-15 | Of two registrations for one opcode, only the later handler runs. |
| Relay.NewRelay | services/message/chat/relay.go:23-32 | The registry starts empty. |
| Relay.Register | services/message/chat/relay.go:36-37 | The uid maps to the new socket, replacing any earlier entry. Every other entry is unchanged. |
| Relay.Route | services/message/chat/relay.go:44-55 | A connected recipient has the message written to its socket and nothing stored. Otherwise the message is posted; a failed post loses it, with only a log line. |
| Relay.RouteAll | services/message/chat/relay.go:42-56 | The messages are routed one by one in arrival order: one delivery per message, carrying that message, live exactly when its recipient was registered; the set of registered users does not change. |
| Relay.ConnectedRecipientReceivesAll | services/message/chat/relay.go:43-47 | A user connected throughout receives on its socket exactly the routed messages addressed to it, in order. |
| Relay.OfflineRecipientStored | services/message/chat/relay.go:49-55 | When nothing is lost, a user offline throughout finds every message addressed to it stored after its earlier ones, in order. |
| Relay.Disconnect | services/message/chat/relay.go:58-67 | An absent uid is a no-op. Otherwise only that uid is removed, and its socket is closed. |
| Relay.StaleHangupClosesNewer | services/message/chat/relay.go:33-41 | When one uid connects twice, the first session's end removes and closes the second session's socket. |
| Relay.DisconnectOwn | services/message/chat/relay.go:58-67 | The corrected disconnect removes and closes the registration only when it is the ending session's own connection. |
| Relay.NewerConnectionSurvives | services/message/chat/relay.go:58-67 | With the corrected disconnect, a stale session ending leaves the newer registration untouched. |
| Relay.AddUserConnection | services/message/chat/relay.go:33-41 | A session forwards the stream's decodable prefix. A message goes live exactly when its recipient is registered, the session's own uid included. At the end the uid is unregistered and its socket is closed. The socket then holds exactly the messages addressed to that uid. When no store fails, each offline recipient's inbox grows by its messages, in order. |

## Left out

- AuthApi.LoginThenMakeJwt: holds with the corrected `Actors.Stringify`. With the as-written `StringifyJwt`, `/jwt` refuses the login's token (`AuthApi.AsWrittenLoginTokenRefused`). The services are written against a token package that is not part of this model (`MintToken`, `Body.Subject`, one-argument `FromString`).
- JwtGate.IssuedTokenAdmitted: holds with the corrected `Actors.Stringify`. With the as-written `StringifyJwt`, no token passes the gate (`JwtGate.AsWrittenTokenRefused`).
- AuthApi.HandlePasswordLogin, AuthApi.HandleMakeJwt, AuthServer.HandlePasswordLogin, AuthServer.HandleMakeJwt and AuthServer.HandlePasswordLoginOnce stringify with `Actors.Stringify` where the source calls `StringifyJwt`, for the same reason.
- Cryptography (jwt/rs256/rs256.go) is not part of this model. Signing and verifying are parameters. `Actors.Sound` is the one assumed property, and the random salt is an argument.
- `Jwt.Signature` and `Jwt.VerifySignature` are panicking stubs. They are modelled as an abstract keyed MAC plus equality.
- `json.Marshal` and `json.Unmarshal` are parameters. Round trips assume `Jwt.BodyRoundTrips` or `Framing.RoundTrips`.
- Password hashing (PBKDF2-SHA1, `hashString`, `b64Encode`), the random salt and the constant-time compare are left out. The hash is a parameter, the salt an argument, and the compare plain equality. The salt's base64 text column is left out.
- `Jwt.Expired`, `Issuer.Mint`/`MintToken`, `Audience.JwtIsValid`, the one-argument `FromString` and `PutRefreshToken` are called but not defined in any file here. They become `Actors.Expired` (now ≥ exp), `Actors.Mint`, a predicate parameter, `Jwt.Parse` and `AuthDb.SetRefreshToken`.
- Jwt.Parse: assumed to make `FromString`'s checks without the MAC, and to keep the whole decoded body and signature.
- `FetchRsaPublicKey`, `handleGetJwtPublicKey`, `Load`, `NewServer`, `Run` and `Log` are left out. They are I/O, route wiring and logging; only the routing in the `ConfigureRoutes` functions is modelled.
- Goroutines, channels and the unsynchronised `users` map are left out. Each relay session runs as one sequential step, and no claim is made about interleaved sessions or races.
- Relay.RouteAll: routes the messages one after another in arrival order. relay.go:45-55 starts a goroutine per message, so the program fixes neither the order of the socket writes nor that of the inserts.
- Relay.ConnectedRecipientReceivesAll: "in order" is the model's serialisation. relay.go:45 writes each live message in its own goroutine, so the program does not fix the order in which they reach the socket.
- Relay.OfflineRecipientStored: the storage order is the model's serialisation. relay.go:50-55 posts each offline message in its own goroutine.
- Relay.AddUserConnection: its in-order delivery and inbox-growth claims rest on the same serialisation of the per-message goroutines of relay.go:45 and relay.go:50-55.
- The select-then-delete of `GetPreKey` is modelled as one sequential step. There is no claim about concurrent fetchers.
- PrekeyDb.GetPreKey: takes the owner's first row in insertion order. The query has no ORDER BY, so SQLite's choice is not fixed by the code.
- MessageDb.GetMessages: returns the rows in insertion order. The query has no ORDER BY, so the order is whatever SQLite's plan gives; a scan of the toUid index usually yields rowid order, which is insertion order.
- MessageDb.GetMessages: driver failures are modelled only as `failsAt`, the point where scanning stops early.
- MessageDb.GetMessages: `keyId` is read back exactly as posted. The column is declared `keyId STRING` (services/message/database/db.go:31), which SQLite gives NUMERIC affinity. A keyId that is well-formed number text is stored as a number and comes back in canonical form: "007" reads back as "7". The model treats the column as text.
- MessageDb.PostThenInbox: the same `keyId` assumption. The stored rows equal the posted messages only for keyIds SQLite keeps as text.
- MessageApi.PostedMessageReadable: the same `keyId` assumption, so the read-back is exact only for keyIds SQLite keeps as text.
- MessageApi.HandleGet: the 500 for a failed JSON write of the reply is not modelled; writing is I/O.
- Errors from `w.Write` and from socket writes are not modelled. The relay discards them anyway.
- Relay.AddUserConnection: covers one session run to its end with nobody else connecting meanwhile. It uses the corrected `disconnect`.
- Socket.ListenAsWritten: the as-written `Listen` never returns, so it is modelled only for a given number of rounds.
- Socket.ListenAsWritten: after a malformed frame the model reads on and decodes the frames that follow. Go's `json.Decoder` keeps a syntax error and returns it on every later call, so from the first malformed value on the as-written `Listen` hands on only zero events. For example, frames [e1, malformed, e3] give [e1, zero, e3] in the model and [e1, zero, zero] in Go. A type mismatch does not stick in Go, so there the model and Go agree that the next value is read. `ListenNeverStops` covers well-formed input and is not affected. Neither are `ListenChecked`, `ChatSocket.ChannelMessages` and `Framing.ReceiveUntilError`, which stop at the first error.
- A frame that does not decode is modelled as consumed. `json.Decoder`'s buffering is not modelled.
- Framing.Receive: a failed read gives the zero value. For a JSON type mismatch, Go's decoder instead fills the other fields and returns `*UnmarshalTypeError`. An example is `{"e":300,"d":{"a":"x"}}` read into an `Event`.
- ChatSocket.ReadMessage: the same simplification; a mistyped field gives the zero message here, not a partly filled one.
- Socket.Value: a JSON number is held as the exact `real` it denotes, where Go's `any` holds the nearest float64; the rounding of large or fractional numbers is not modelled.
- Socket.ReadEvent: the same simplification; the as-written `Listen` would hand on the partly filled event, where the model hands on the zero event.
- The `chat.Message` type in services/message/chat/socket.go is never used, so it is left out.
- `http.Error` message texts are left out; only status codes are kept.
- `socket.NewSocket` and `socket.Close` are modelled by `Framing.Endpoint` and `Framing.Close`, the same as the chat socket's.

## Findings

| source | as written | input that shows it | evidently intended | confidence | as-written member | corrected member |
|---|---|---|---|---|---|---|
| jwt/actors.go:48-58 | `make([]string, 3)` followed by `append` puts three empty strings before the segments | any token: the output is `...` followed by the three segments joined by `.`, six pieces in all | the three-segment compact form | not executed; follows from Go's `make` and `append` | Actors.StringifyJwt, Actors.StringifyJwtHasSixSegments | Actors.Stringify, Actors.StringifyParsesBack |
| services/auth/server.go:123-126 | login stringifies the refresh token twice: once to store and once to return | any successful login whose two PSS salts differ, the normal case for a randomised signature | store and return the same string, as services/auth/api/api.go:125-129 does | not executed; depends on PSS salts differing | AuthServer.Serve, AuthServer.LoginReturnsUnstoredToken | AuthServer.HandlePasswordLoginOnce |
| socket/socket.go:37-54 | `ReadEvent` discards the decoder's error, so `Listen`'s exit branch never runs | a peer that sends one event and hangs up: the zero event is then handed on forever | return the error so that `Listen` stops | not executed | Socket.ReadEvent, Socket.ListenAsWritten, Socket.ListenNeverStops | Socket.ListenChecked, Socket.ListenCheckedHearsPeer |
| services/ecdh/api/api.go:102-106 | only `body[0].FromUid` is compared with the token's subject | the batch [own key, key naming another user] is accepted, and the other user's correspondents are handed the foreign key | every key must name the caller | not executed | PrekeyApi.Serve, PrekeyApi.ServeAcceptsForeignKey | PrekeyApi.ServeChecked, PrekeyApi.OwnUploadLeavesOthers |
| services/message/chat/relay.go:58-67 | `disconnect` is keyed by uid alone | uid connects on c1 and then on c2; when c1 ends, c2's socket is removed and closed | remove only the ending session's own registration | not executed | Relay.Disconnect, Relay.StaleHangupClosesNewer | Relay.DisconnectOwn, Relay.NewerConnectionSurvives |

=== FILE: actors.dfy ===
/** The two trust roles of jwt/actors.go: the Issuer, holding a private key,
    signs tokens; an Audience, holding the issuer's public key and its own
    identifier, accepts tokens addressed to it.

    Signing is RSASSA-PSS over SHA-256 (jwt/rs256/rs256.go), a randomised
    scheme, even though the header names RS256; in the algorithm registry of
    section 3.5 of RFC 7518 that scheme is PS256. The cryptography is not
    modelled: `Signer` holds a signing and a verifying function, the random
    salt is a parameter, and the one property assumed of the pair is `Sound`. */
module Actors {
  import opened Wrappers
  import opened Base64Url
  import opened Jwt
  import Strings

  datatype PublicKey = PublicKey(material: Bytes)

  /** An RSA private key carries its public half */
  datatype PrivateKey = PrivateKey(secret: Bytes, publicKey: PublicKey)

  /** `rs256.Signature(bytes, priv)` with its random salt made explicit, and `rs256.VerifySignature` */
  datatype Signer = Signer(sign: (Bytes, PrivateKey, Bytes) -> Bytes, verify: (Bytes, Bytes, PublicKey) -> bool)

  /** A signature made with a private key verifies under its public half */
  ghost predicate Sound(sg: Signer)
  {
    forall m: Bytes, k: PrivateKey, salt: Bytes :: sg.verify(m, sg.sign(m, k, salt), k.publicKey)
  }

  datatype Audience = Audience(pub: PublicKey, identifier: string)
  datatype Issuer = Issuer(priv: PrivateKey, identifier: string)

  /** `NewAudience`: the key and identifier are stored as given */
  function NewAudience(pub: PublicKey, identifier: string): (a: Audience)
    ensures a.pub == pub && a.identifier == identifier
  {
    Audience(pub, identifier)
  }

  /** `NewIssuer`: the key and identifier are stored as given */
  function NewIssuer(priv: PrivateKey, identifier: string): (i: Issuer)
    ensures i.priv == priv && i.identifier == identifier
  {
    Issuer(priv, identifier)
  }

  /** `Issuer.PublicKey`: the public half of the issuer's own private key */
  function IssuerPublicKey(i: Issuer): (k: PublicKey)
    ensures k == i.priv.publicKey
  {
    i.priv.publicKey
  }

  /** `Jwt.Expired`, whose source is not part of this model: the expiry
      instant has been reached */
  predicate Expired(j: Jwt, now: int)
  {
    now >= j.body.exp
  }

  /** The signature check alone (`Audience.VerifySignature` in the later
      server): the token's signature over its header and body bytes verifies
      under the audience's key */
  predicate SignatureOk(sg: Signer, js: Json, a: Audience, j: Jwt)
  {
    sg.verify(SigningInput(js, j.header, j.body), j.signature, a.pub)
  }

  /** `Audience.Verify`: not expired, addressed to this audience, and signed */
  function Verify(sg: Signer, js: Json, a: Audience, j: Jwt, now: int): (ok: bool)
    ensures Expired(j, now) ==> !ok
    ensures a.identifier != j.body.aud ==> !ok
    ensures !Expired(j, now) && a.identifier == j.body.aud ==> (ok <==> SignatureOk(sg, js, a, j))
  {
    if Expired(j, now) || a.identifier != j.body.aud then false
    else sg.verify(SigningInput(js, j.header, j.body), j.signature, a.pub)
  }

  /** `Issuer.Mint`/`MintToken`, whose source is not part of this model: the
      claims of a fresh token; `jti` is the caller's random identifier and the
      signature is made later, when the token is stringified */
  function Mint(i: Issuer, sub: string, aud: string, ttl: int, now: int, jti: string): (j: Jwt)
    ensures j.header == DefaultHeader
    ensures j.body.sub == sub && j.body.aud == aud && j.body.iss == i.identifier && j.body.jti == jti
    ensures forall t :: Expired(j, t) <==> t >= now + ttl
  {
    Jwt(DefaultHeader, Body(sub, aud, i.identifier, now + ttl, jti), [])
  }

  /** The signature the issuer puts on a token: over header bytes followed by body bytes */
  function IssuerSignature(i: Issuer, sg: Signer, js: Json, j: Jwt, salt: Bytes): Bytes
  {
    sg.sign(SigningInput(js, j.header, j.body), i.priv, salt)
  }

  /** `Issuer.StringifyJwt` as written: `parts` starts as three empty strings
      and the three encoded segments are appended after them, so the text is
      three dots followed by the intended compact form */
  function StringifyJwt(i: Issuer, sg: Signer, js: Json, j: Jwt, salt: Bytes): (s: string)
    ensures s == "..." + Stringify(i, sg, js, j, salt)
  {
    var segments := [Encode(js.header(j.header)), Encode(js.body(j.body)),
                     Encode(IssuerSignature(i, sg, js, j, salt))];
    var parts := ["", "", ""] + segments;
    assert parts[1..] == ["", ""] + segments && parts[1..][1..] == [""] + segments;
    assert parts[1..][1..][1..] == segments;
    assert Stringify(i, sg, js, j, salt) == Strings.Join(segments, '.');
    assert Strings.Join(parts[1..][1..], '.') == "." + Strings.Join(segments, '.');
    assert Strings.Join(parts[1..], '.') == ".." + Strings.Join(segments, '.');
    Strings.Join(parts, '.')
  }

  /** The text `StringifyJwt` produces has six segments, the first three
      empty, so no three-segment parser accepts it */
  lemma StringifyJwtHasSixSegments(i: Issuer, sg: Signer, js: Json, j: Jwt, salt: Bytes)
    ensures Strings.Split(StringifyJwt(i, sg, js, j, salt), '.') ==
            ["", "", "", Encode(js.header(j.header)), Encode(js.body(j.body)),
             Encode(IssuerSignature(i, sg, js, j, salt))]
    ensures Parse(js, StringifyJwt(i, sg, js, j, salt)) == Parsed(Zero, Some(ParseError))
  {
    var sig := IssuerSignature(i, sg, js, j, salt);
    EncodeHasNoDot(js.header(j.header));
    EncodeHasNoDot(js.body(j.body));
    EncodeHasNoDot(sig);
    var parts := ["", "", "", Encode(js.header(j.header)), Encode(js.body(j.body)), Encode(sig)];
    assert ["", "", ""] + [Encode(js.header(j.header)), Encode(js.body(j.body)), Encode(sig)] == parts;
    Strings.SplitJoin(parts, '.');
  }

  /** `StringifyJwt` as evidently intended: the three-segment compact form.
      The services in this model use this one. */
  function Stringify(i: Issuer, sg: Signer, js: Json, j: Jwt, salt: Bytes): (s: string)
    ensures Strings.Split(s, '.') ==
            [Encode(js.header(j.header)), Encode(js.body(j.body)), Encode(IssuerSignature(i, sg, js, j, salt))]
  {
    Serialize(js, j.header, j.body, IssuerSignature(i, sg, js, j, salt))
  }

  /** Parsing what the issuer stringified gives back the body together with
      the issuer's signature over exactly the bytes `Verify` checks */
  lemma StringifyParsesBack(i: Issuer, sg: Signer, js: Json, j: Jwt, salt: Bytes)
    requires BodyRoundTrips(js)
    ensures Parse(js, Stringify(i, sg, js, j, salt)) ==
            Parsed(Jwt(DefaultHeader, j.body, IssuerSignature(i, sg, js, j, salt)), None)
  {
    ParseSerialize(js, j.header, j.body, IssuerSignature(i, sg, js, j, salt));
  }

  /** An audience holding the issuer's public key accepts a token the issuer
      stringified, as long as it is unexpired and addressed to that audience */
  lemma IssuedTokenVerifies(i: Issuer, sg: Signer, js: Json, a: Audience, j: Jwt, salt: Bytes, now: int)
    requires Sound(sg) && BodyRoundTrips(js)
    requires j.header == DefaultHeader
    requires a.pub == IssuerPublicKey(i)
    requires a.identifier == j.body.aud && now < j.body.exp
    ensures Parse(js, Stringify(i, sg, js, j, salt)).err.None?
    ensures Verify(sg, js, a, Parse(js, Stringify(i, sg, js, j, salt)).token, now)
  {
    StringifyParsesBack(i, sg, js, j, salt);
    var t := Parse(js, Stringify(i, sg, js, j, salt)).token;
    assert SigningInput(js, t.header, t.body) == SigningInput(js, j.header, j.body);
    assert sg.verify(SigningInput(js, j.header, j.body), sg.sign(SigningInput(js, j.header, j.body), i.priv, salt), i.priv.publicKey);
  }

  /** A minted token, stringified and parsed back, is accepted by the audience
      it names until `ttl` seconds have passed and rejected from then on */
  lemma MintedTokenLifetime(i: Issuer, sg: Signer, js: Json, sub: string, ttl: int, now: int,
                            jti: string, salt: Bytes, later: int)
    requires Sound(sg) && BodyRoundTrips(js)
    requires later >= now
    ensures var a := NewAudience(IssuerPublicKey(i), i.identifier);
            var j := Mint(i, sub, a.identifier, ttl, now, jti);
            var t := Parse(js, Stringify(i, sg, js, j, salt)).token;
            Verify(sg, js, a, t, later) <==> later < now + ttl
  {
    var a := NewAudience(IssuerPublicKey(i), i.identifier);
    var j := Mint(i, sub, a.identifier, ttl, now, jti);
    StringifyParsesBack(i, sg, js, j, salt);
    if later < now + ttl {
      IssuedTokenVerifies(i, sg, js, a, j, salt, later);
    }
  }

  /** An audience with another identifier rejects the token whatever its signature */
  lemma OtherAudienceRejects(i: Issuer, sg: Signer, js: Json, a: Audience, j: Jwt, salt: Bytes, now: int)
    requires BodyRoundTrips(js)
    requires a.identifier != j.body.aud
    ensures !Verify(sg, js, a, Parse(js, Stringify(i, sg, js, j, salt)).token, now)
  {
    StringifyParsesBack(i, sg, js, j, salt);
  }
}

=== FILE: auth_api.dfy ===
/** The later authentication service (services/auth/api/api.go): password
    login issues a refresh token and records it as the user's current one;
    `/jwt` exchanges a current refresh token for a five-second access token;
    `/logout` revokes a refresh token. `/jwt` and `/logout` run behind the
    `AuthRefreshToken` middleware.

    Each handler is a function from the users table, the request and the
    per-request context to the response and the table afterwards. */
module AuthApi {
  import opened Wrappers
  import opened Jwt
  import opened Actors
  import opened AuthDb
  import opened Http
  import opened AuthRequests
  import Strings

  /** The service's fixed collaborators. `isValid` is the audience's
      `JwtIsValid`, whose source is not part of this model. */
  datatype Server = Server(js: Json, sg: Signer, hash: PwHash, issuer: Issuer, audience: Audience,
                           isValid: Jwt -> bool)

  datatype Route = RegisterRoute | LoginRoute | JwtRoute | LogoutRoute

  /** The checks of `AuthRefreshToken`, all passed */
  predicate PassesRefreshChecks(s: Server, db: Db, tokenString: string, now: int)
  {
    var p := Parse(s.js, tokenString);
    && p.err.None?
    && s.isValid(p.token)
    && !Expired(p.token, now)
    && UserHasRefreshToken(db, p.token.body.sub, tokenString) == (true, None)
  }

  /** `AuthRefreshToken`: parse, `JwtIsValid`, expiry (discarding the
      expired token string), then currency; only when all pass does the
      wrapped handler run */
  function AuthRefreshToken(s: Server, next: Db -> Outcome, db: Db, req: Request, now: int): (r: Outcome)
    ensures PassesRefreshChecks(s, db, req.authorization, now) ==> r == next(db)
    ensures !PassesRefreshChecks(s, db, req.authorization, now) ==>
              r.response.status in {StatusUnauthorized, StatusInternalServerError}
    ensures Parse(s.js, req.authorization).err.Some? ==> r == Outcome(Status(StatusUnauthorized), db)
    ensures var p := Parse(s.js, req.authorization);
            p.err.None? && !s.isValid(p.token) ==> r == Outcome(Status(StatusUnauthorized), db)
    ensures var p := Parse(s.js, req.authorization);
            p.err.None? && s.isValid(p.token) && Expired(p.token, now) ==>
              r == Outcome(Status(StatusUnauthorized), DiscardRefreshToken(db, req.authorization).0)
    ensures var p := Parse(s.js, req.authorization);
            p.err.None? && s.isValid(p.token) && !Expired(p.token, now) ==>
              && (!db.up ==> r == Outcome(Status(StatusInternalServerError), db))
              && (db.up && !UserHasRefreshToken(db, p.token.body.sub, req.authorization).0 ==>
                    r == Outcome(Status(StatusUnauthorized), db))
    ensures (r.response.status == StatusInternalServerError && !PassesRefreshChecks(s, db, req.authorization, now))
            ==> !db.up && r.db == db
  {
    var tokenString := req.authorization;
    var p := Parse(s.js, tokenString);
    if p.err.Some? then Outcome(Status(StatusUnauthorized), db)
    else if !s.isValid(p.token) then Outcome(Status(StatusUnauthorized), db)
    else if Expired(p.token, now) then
      Outcome(Status(StatusUnauthorized), DiscardRefreshToken(db, tokenString).0)
    else
      var (ok, err) := UserHasRefreshToken(db, p.token.body.sub, tokenString);
      if err.Some? then Outcome(Status(StatusInternalServerError), db)
      else if !ok then Outcome(Status(StatusUnauthorized), db)
      else next(db)
  }

  /** The refresh token a successful login issues */
  function LoginToken(s: Server, username: string, ctx: Context): Jwt
  {
    Mint(s.issuer, GetUidFor(s.hash, username), s.issuer.identifier, RefreshTokenTTL, ctx.now, ctx.jti)
  }

  /** `handlePasswordLogin`: 400, 404 for an unknown user, 401 for a wrong
      password, storing nothing; on success one stringified refresh token is
      both stored as the user's current token and returned, and a failure to
      store it is ignored */
  function HandlePasswordLogin(s: Server, db: Db, req: Request, ctx: Context): (r: Outcome)
    ensures req.credentials.None? ==> r == Outcome(Status(StatusBadRequest), db)
    ensures req.credentials.Some? ==>
              var c := req.credentials.value;
              var v := VerifyPassword(s.hash, db, c.username, c.password);
              && (v.1 == Some(NoSuchUserError(c.username)) ==> r == Outcome(Status(StatusNotFound), db))
              && (v == (false, None) ==> r == Outcome(Status(StatusUnauthorized), db))
              && (v.0 ==> var t := Stringify(s.issuer, s.sg, s.js, LoginToken(s, c.username, ctx), ctx.salt);
                          && r.response == Response(StatusOK, t)
                          && r.db == SetRefreshToken(db, t, GetUidFor(s.hash, c.username)).0)
    ensures r.response.status != StatusOK ==> r.db == db
  {
    match req.credentials
    case None => Outcome(Status(StatusBadRequest), db)
    case Some(c) =>
      var (ok, err) := VerifyPassword(s.hash, db, c.username, c.password);
      if err.Some? then
        if err.value.NoSuchUserError? then Outcome(Status(StatusNotFound), db)
        else Outcome(Status(StatusInternalServerError), db)
      else if !ok then Outcome(Status(StatusUnauthorized), db)
      else
        var rfToken := LoginToken(s, c.username, ctx);
        var rft := Stringify(s.issuer, s.sg, s.js, rfToken, ctx.salt);
        var (db', _) := SetRefreshToken(db, rft, rfToken.body.sub);
        Outcome(Response(StatusOK, rft), db')
  }

  /** `HandleMakeJwt`: 400 without an audience; otherwise a token for the
      refresh token's subject and the requested audience, living five
      seconds. The parse error is discarded: the middleware has already
      parsed the same header. */
  function HandleMakeJwt(s: Server, db: Db, req: Request, ctx: Context): (r: Outcome)
    ensures r.db == db
    ensures req.aud == "" ==> r.response == Status(StatusBadRequest)
    ensures req.aud != "" ==>
              var j := Mint(s.issuer, Parse(s.js, req.authorization).token.body.sub, req.aud, JwtTTL, ctx.now, ctx.jti);
              r.response == Response(StatusOK, Stringify(s.issuer, s.sg, s.js, j, ctx.salt))
  {
    var rfToken := Parse(s.js, req.authorization).token;
    if req.aud == "" then Outcome(Status(StatusBadRequest), db)
    else
      var j := Mint(s.issuer, rfToken.body.sub, req.aud, JwtTTL, ctx.now, ctx.jti);
      Outcome(Response(StatusOK, Stringify(s.issuer, s.sg, s.js, j, ctx.salt)), db)
  }

  /** `handleLogout`: discard the presented token string, idempotently */
  function HandleLogout(db: Db, req: Request): (r: Outcome)
    ensures r.db == DiscardRefreshToken(db, req.authorization).0
    ensures r.response.status == StatusOK <==> db.up
  {
    var (db', err) := DiscardRefreshToken(db, req.authorization);
    if err.Some? then Outcome(Status(StatusInternalServerError), db')
    else Outcome(Status(StatusOK), db')
  }

  /** `ConfigureRoutes`: `/jwt` and `/logout` go through the refresh-token
      middleware, `/register` and `/login` do not */
  function Serve(s: Server, route: Route, db: Db, req: Request, ctx: Context): (r: Outcome)
    ensures route == JwtRoute ==>
              r == AuthRefreshToken(s, d => HandleMakeJwt(s, d, req, ctx), db, req, ctx.now)
    ensures route == LogoutRoute ==> r == AuthRefreshToken(s, d => HandleLogout(d, req), db, req, ctx.now)
    ensures route in {JwtRoute, LogoutRoute} && !PassesRefreshChecks(s, db, req.authorization, ctx.now) ==>
              r.response.status in {StatusUnauthorized, StatusInternalServerError}
  {
    match route
    case RegisterRoute => HandleRegisterUser(s.hash, db, req, ctx)
    case LoginRoute => HandlePasswordLogin(s, db, req, ctx)
    case JwtRoute => AuthRefreshToken(s, d => HandleMakeJwt(s, d, req, ctx), db, req, ctx.now)
    case LogoutRoute => AuthRefreshToken(s, d => HandleLogout(d, req), db, req, ctx.now)
  }

  /** With the as-written `StringifyJwt`, the refresh token a login hands
      out is six pieces long, so `/jwt` and `/logout` refuse it with 401
      whatever the table holds */
  lemma AsWrittenLoginTokenRefused(s: Server, route: Route, db: Db, username: string, ctx: Context,
                                   later: Context, aud: string)
    requires route in {JwtRoute, LogoutRoute}
    ensures var t := StringifyJwt(s.issuer, s.sg, s.js, LoginToken(s, username, ctx), ctx.salt);
            Serve(s, route, db, Request(t, aud, None), later) == Outcome(Status(StatusUnauthorized), db)
  {
    StringifyJwtHasSixSegments(s.issuer, s.sg, s.js, LoginToken(s, username, ctx), ctx.salt);
  }

  /** After `/logout`, the same token gets 401 from `/jwt`, at any time */
  lemma LogoutRevokes(s: Server, db: Db, req: Request, ctx: Context, later: Context, aud: string)
    requires db.up
    ensures var db' := Serve(s, LogoutRoute, db, req, ctx).db;
            Serve(s, JwtRoute, db', req.(aud := aud), later).response.status == StatusUnauthorized
  {
    var t := req.authorization;
    var db' := Serve(s, LogoutRoute, db, req, ctx).db;
    var p := Parse(s.js, t);
    if p.err.None? && s.isValid(p.token) && !Expired(p.token, later.now) {
      assert t != "" by {
        assert |Strings.Split("", '.')| == 1;
      }
      assert db'.up;
      if PassesRefreshChecks(s, db, t, ctx.now) {
        assert db' == DiscardRefreshToken(db, t).0;
      }
      assert UserHasRefreshToken(db', p.token.body.sub, t) == (false, None);
    }
  }

  /** A user who logs in can exchange the returned refresh token, while it
      is unexpired and accepted by `JwtIsValid`, for an access token for any
      audience, carrying the user's uid */
  lemma LoginThenMakeJwt(s: Server, db: Db, creds: Credentials, ctx: Context, later: Context, aud: string)
    requires BodyRoundTrips(s.js) && Valid(db)
    requires aud != ""
    requires HandlePasswordLogin(s, db, Request("", "", Some(creds)), ctx).response.status == StatusOK
    requires later.now < ctx.now + RefreshTokenTTL
    requires s.isValid(Parse(s.js, HandlePasswordLogin(s, db, Request("", "", Some(creds)), ctx).response.body).token)
    ensures var login := HandlePasswordLogin(s, db, Request("", "", Some(creds)), ctx);
            var r := Serve(s, JwtRoute, login.db, Request(login.response.body, aud, None), later);
            && r.response.status == StatusOK
            && r.response.body == Stringify(s.issuer, s.sg, s.js,
                 Mint(s.issuer, GetUidFor(s.hash, creds.username), aud, JwtTTL, later.now, later.jti), later.salt)
  {
    var login := HandlePasswordLogin(s, db, Request("", "", Some(creds)), ctx);
    var uid := GetUidFor(s.hash, creds.username);
    var rf := LoginToken(s, creds.username, ctx);
    var rft := Stringify(s.issuer, s.sg, s.js, rf, ctx.salt);
    assert login.response.body == rft;
    StringifyParsesBack(s.issuer, s.sg, s.js, rf, ctx.salt);
    assert uid in db.users;
    assert PassesRefreshChecks(s, login.db, rft, later.now);
  }
}

=== FILE: auth_db.dfy ===
/** The users table of the authentication service
    (services/auth/database/db.go): one row per user, keyed by a uid derived
    from the username, holding the password hash, its salt and the user's
    current refresh token (the empty string when there is none).

    The table is a map from the primary key `uid` to the row; `up` says
    whether the database answers at all, and when it does not every query
    fails with a backend error and changes nothing. PBKDF2 and the random salt
    are not modelled: the hash is a function-valued parameter and the salt is
    an argument. The salt is kept as bytes; its base64 text column is left out. */
module AuthDb {
  import opened Wrappers
  import opened Base64Url

  /** `getPwHash(password, salt)`: PBKDF2-SHA1 of the text under the salt, base64 encoded */
  type PwHash = (string, Bytes) -> string

  datatype User = User(uid: string, hashedPw: string, salt: Bytes, refreshToken: string)

  datatype Db = Db(users: map<string, User>, up: bool)

  datatype DbError = UserExistsError(username: string) | NoSuchUserError(username: string) | BackendError

  /** The primary key: every row is stored under its own uid */
  ghost predicate Valid(db: Db)
  {
    forall uid :: uid in db.users ==> db.users[uid].uid == uid
  }

  /** `GetUidFor`: the username hashed like a password, under the empty salt */
  function GetUidFor(hash: PwHash, username: string): (uid: string)
    ensures uid == hash(username, [])
  {
    hash(username, [])
  }

  /** `NewUser`: the row for a new user, with no refresh token yet */
  function NewUser(hash: PwHash, username: string, password: string, salt: Bytes): (u: User)
    ensures u.uid == GetUidFor(hash, username)
    ensures u.hashedPw == hash(password, salt) && u.salt == salt
    ensures u.refreshToken == ""
  {
    User(GetUidFor(hash, username), hash(password, salt), salt, "")
  }

  /** `UserExists`: (true, nil) for a stored uid, (false, nil) for an absent one */
  function UserExists(db: Db, uid: string): (r: (bool, Option<DbError>))
    ensures db.up ==> r == (uid in db.users, None)
    ensures !db.up ==> r == (false, Some(BackendError))
  {
    if !db.up then (false, Some(BackendError))
    else (uid in db.users, None)
  }

  /** `RegisterUser`: a taken uid is refused; otherwise the new row is inserted */
  function RegisterUser(hash: PwHash, db: Db, username: string, password: string, salt: Bytes)
    : (r: (Db, Option<DbError>))
    ensures r.1.Some? ==> r.0 == db
    ensures db.up && GetUidFor(hash, username) in db.users ==> r.1 == Some(UserExistsError(username))
    ensures r.1.None? <==> db.up && GetUidFor(hash, username) !in db.users
    ensures r.1.None? ==>
              r.0 == Db(db.users[GetUidFor(hash, username) := NewUser(hash, username, password, salt)], true)
    ensures Valid(db) ==> Valid(r.0)
  {
    var (ok, err) := UserExists(db, GetUidFor(hash, username));
    if ok then (db, Some(UserExistsError(username)))
    else if err.Some? then (db, err)
    else
      var u := NewUser(hash, username, password, salt);
      (db.(users := db.users[u.uid := u]), None)
  }

  /** `VerifyPassword`: the no-such-user error for an unknown username,
      otherwise whether the password hashes, under the stored salt, to the
      stored hash */
  function VerifyPassword(hash: PwHash, db: Db, username: string, password: string): (r: (bool, Option<DbError>))
    ensures r.0 ==> r.1.None?
    ensures !db.up ==> r == (false, Some(BackendError))
    ensures db.up && GetUidFor(hash, username) !in db.users ==> r == (false, Some(NoSuchUserError(username)))
    ensures db.up && GetUidFor(hash, username) in db.users ==>
              var u := db.users[GetUidFor(hash, username)];
              r == (hash(password, u.salt) == u.hashedPw, None)
  {
    var uid := GetUidFor(hash, username);
    if !db.up then (false, Some(BackendError))
    else if uid !in db.users then (false, Some(NoSuchUserError(username)))
    else
      var u := db.users[uid];
      (hash(password, u.salt) == u.hashedPw, None)
  }

  /** `SetRefreshToken`: the uid's token is overwritten; an unknown uid
      updates no row and is not an error */
  function SetRefreshToken(db: Db, rft: string, uid: string): (r: (Db, Option<DbError>))
    ensures !db.up ==> r == (db, Some(BackendError))
    ensures db.up ==> r.1.None? && r.0.up && r.0.users.Keys == db.users.Keys
    ensures db.up && uid in db.users ==> r.0.users[uid] == db.users[uid].(refreshToken := rft)
    ensures db.up ==> forall v :: v in db.users && v != uid ==> r.0.users[v] == db.users[v]
    ensures db.up && uid !in db.users ==> r.0 == db
    ensures Valid(db) ==> Valid(r.0)
  {
    if !db.up then (db, Some(BackendError))
    else if uid in db.users then (db.(users := db.users[uid := db.users[uid].(refreshToken := rft)]), None)
    else (db, None)
  }

  /** A row with its token cleared when it equals `rft` */
  function ClearToken(u: User, rft: string): User
  {
    if u.refreshToken == rft then u.(refreshToken := "") else u
  }

  /** `DiscardRefreshToken`: every row holding exactly `rft` gets the empty
      token; no other row and no other column changes */
  function DiscardRefreshToken(db: Db, rft: string): (r: (Db, Option<DbError>))
    ensures !db.up ==> r == (db, Some(BackendError))
    ensures db.up ==> r.1.None? && r.0.up && r.0.users.Keys == db.users.Keys
    ensures db.up ==> forall v :: v in db.users ==>
              && r.0.users[v].refreshToken == (if db.users[v].refreshToken == rft then "" else db.users[v].refreshToken)
              && r.0.users[v] == db.users[v].(refreshToken := r.0.users[v].refreshToken)
    ensures Valid(db) ==> Valid(r.0)
  {
    if !db.up then (db, Some(BackendError))
    else (db.(users := map v | v in db.users :: ClearToken(db.users[v], rft)), None)
  }

  /** `UserHasRefreshToken`: (false, nil) for an unknown uid, otherwise
      whether the stored token equals the presented one */
  function UserHasRefreshToken(db: Db, uid: string, rft: string): (r: (bool, Option<DbError>))
    ensures !db.up ==> r == (false, Some(BackendError))
    ensures db.up ==> r.1.None? && (r.0 <==> uid in db.users && db.users[uid].refreshToken == rft)
  {
    if !db.up then (false, Some(BackendError))
    else if uid !in db.users then (false, None)
    else (db.users[uid].refreshToken == rft, None)
  }

  /** Discarding the same token twice is the same as discarding it once */
  lemma DiscardIdempotent(db: Db, rft: string)
    ensures DiscardRefreshToken(DiscardRefreshToken(db, rft).0, rft) == DiscardRefreshToken(db, rft)
  {
    if db.up {
      var once := DiscardRefreshToken(db, rft).0;
      var twice := DiscardRefreshToken(once, rft).0;
      assert twice.users == once.users;
    }
  }

  /** A later token supersedes an earlier one, and discarding a non-empty
      token revokes it */
  lemma Supersession(db: Db, uid: string, t1: string, t2: string)
    requires db.up && uid in db.users
    requires t1 != t2
    ensures var db1 := SetRefreshToken(db, t1, uid).0;
            var db2 := SetRefreshToken(db1, t2, uid).0;
            && UserHasRefreshToken(db2, uid, t1) == (false, None)
            && UserHasRefreshToken(db2, uid, t2) == (true, None)
            && (t2 != "" ==> UserHasRefreshToken(DiscardRefreshToken(db2, t2).0, uid, t2) == (false, None))
  {
  }

  /** A registered user can log in with the password given at registration,
      and holds no refresh token yet */
  lemma RegisterThenVerify(hash: PwHash, db: Db, username: string, password: string, salt: Bytes, attempt: string)
    requires RegisterUser(hash, db, username, password, salt).1.None?
    ensures var db' := RegisterUser(hash, db, username, password, salt).0;
            && VerifyPassword(hash, db', username, password) == (true, None)
            && VerifyPassword(hash, db', username, attempt) == (hash(attempt, salt) == hash(password, salt), None)
            && UserExists(db', GetUidFor(hash, username)) == (true, None)
            && UserHasRefreshToken(db', GetUidFor(hash, username), "") == (true, None)
  {
  }

  /** Registering an existing username changes nothing, whatever the password */
  lemma RegisterTwice(hash: PwHash, db: Db, username: string, p1: string, p2: string, s1: Bytes, s2: Bytes)
    requires RegisterUser(hash, db, username, p1, s1).1.None?
    ensures var db1 := RegisterUser(hash, db, username, p1, s1).0;
            RegisterUser(hash, db1, username, p2, s2) == (db1, Some(UserExistsError(username)))
  {
  }
}

=== FILE: auth_requests.dfy ===
/** What both versions of the authentication service (services/auth/api/api.go
    and services/auth/server.go) share: their lifetimes, the parts of a request
    the handlers read, and the result of handling one. */
module AuthRequests {
  import opened Wrappers
  import opened Base64Url
  import Http
  import AuthDb

  /** `RefreshTokenTTL`, seven days, in seconds */
  const RefreshTokenTTL: int := 7 * 24 * 60 * 60
  /** `JwtTTL`, five seconds */
  const JwtTTL: int := 5

  datatype Credentials = Credentials(username: string, password: string)

  /** The `Authorization` header, the `aud` query parameter, and the JSON body
      (None when it does not decode) */
  datatype Request = Request(authorization: string, aud: string, credentials: Option<Credentials>)

  /** The clock and the randomness one request consumes: a token id, a
      signing salt for each signature made, and a password salt */
  datatype Context = Context(now: int, jti: string, salt: Bytes, salt2: Bytes, pwSalt: Bytes)

  /** The response written and the users table afterwards */
  datatype Outcome = Outcome(response: Http.Response, db: AuthDb.Db)

  /** `handleRegisterUser`: 400 for an undecodable body, 409 for a taken
      username, 500 for a backend failure */
  function HandleRegisterUser(hash: AuthDb.PwHash, db: AuthDb.Db, req: Request, ctx: Context): (r: Outcome)
    ensures req.credentials.None? ==> r == Outcome(Http.Status(Http.StatusBadRequest), db)
    ensures r.response.status == Http.StatusOK <==>
              req.credentials.Some? && AuthDb.RegisterUser(hash, db, req.credentials.value.username,
                                                    req.credentials.value.password, ctx.pwSalt).1.None?
    ensures r.response.status != Http.StatusOK ==> r.db == db
  {
    match req.credentials
    case None => Outcome(Http.Status(Http.StatusBadRequest), db)
    case Some(c) =>
      var (db', err) := AuthDb.RegisterUser(hash, db, c.username, c.password, ctx.pwSalt);
      if err.None? then Outcome(Http.Status(Http.StatusOK), db')
      else if err.value.UserExistsError? then Outcome(Http.Status(Http.StatusConflict), db)
      else Outcome(Http.Status(Http.StatusInternalServerError), db)
  }
}

=== FILE: auth_server.dfy ===
/** The other version of the authentication service
    (services/auth/server.go). Its routes carry no middleware: `/jwt` and
    `/logout` make their own checks, with the audience's signature check in
    place of `JwtIsValid`, and logout is more lenient than in the middleware
    version. It runs against the same users table. */
module AuthServer {
  import opened Wrappers
  import opened Base64Url
  import opened Jwt
  import opened Actors
  import opened AuthDb
  import opened Http
  import opened AuthRequests
  import Strings

  datatype Server = Server(js: Json, sg: Signer, hash: PwHash, issuer: Issuer, audience: Audience)

  datatype Route = RegisterRoute | LoginRoute | JwtRoute | LogoutRoute

  /** The refresh-token checks `HandleMakeJwt` makes before looking at the
      requested audience, all passed */
  predicate RefreshTokenAccepted(s: Server, db: Db, tokenString: string, now: int)
  {
    var p := Parse(s.js, tokenString);
    && p.err.None?
    && SignatureOk(s.sg, s.js, s.audience, p.token)
    && !Expired(p.token, now)
    && UserHasRefreshToken(db, p.token.body.sub, tokenString) == (true, None)
  }

  /** `HandleMakeJwt`: parse, signature, expiry (discarding the expired
      token string), currency, and only then the requested audience */
  function HandleMakeJwt(s: Server, db: Db, req: Request, ctx: Context): (r: Outcome)
    ensures !RefreshTokenAccepted(s, db, req.authorization, ctx.now) ==>
              r.response.status in {StatusUnauthorized, StatusInternalServerError}
    ensures r.response.status == StatusInternalServerError ==> !db.up
    ensures Parse(s.js, req.authorization).err.Some? ==> r == Outcome(Status(StatusUnauthorized), db)
    ensures var p := Parse(s.js, req.authorization);
            p.err.None? && !SignatureOk(s.sg, s.js, s.audience, p.token) ==> r == Outcome(Status(StatusUnauthorized), db)
    ensures var p := Parse(s.js, req.authorization);
            p.err.None? && SignatureOk(s.sg, s.js, s.audience, p.token) && Expired(p.token, ctx.now) ==>
              r == Outcome(Status(StatusUnauthorized), DiscardRefreshToken(db, req.authorization).0)
    ensures var p := Parse(s.js, req.authorization);
            p.err.None? && SignatureOk(s.sg, s.js, s.audience, p.token) && !Expired(p.token, ctx.now) ==>
              && (!db.up ==> r == Outcome(Status(StatusInternalServerError), db))
              && (db.up && !UserHasRefreshToken(db, p.token.body.sub, req.authorization).0 ==>
                    r == Outcome(Status(StatusUnauthorized), db))
    ensures RefreshTokenAccepted(s, db, req.authorization, ctx.now) && req.aud == "" ==>
              r == Outcome(Status(StatusBadRequest), db)
    ensures RefreshTokenAccepted(s, db, req.authorization, ctx.now) && req.aud != "" ==>
              var j := Mint(s.issuer, Parse(s.js, req.authorization).token.body.sub, req.aud, JwtTTL, ctx.now, ctx.jti);
              r == Outcome(Response(StatusOK, Stringify(s.issuer, s.sg, s.js, j, ctx.salt)), db)
    ensures r.db != db ==> r.db == DiscardRefreshToken(db, req.authorization).0
  {
    var rfTokenStr := req.authorization;
    var p := Parse(s.js, rfTokenStr);
    if p.err.Some? then Outcome(Status(StatusUnauthorized), db)
    else if !SignatureOk(s.sg, s.js, s.audience, p.token) then Outcome(Status(StatusUnauthorized), db)
    else if Expired(p.token, ctx.now) then
      Outcome(Status(StatusUnauthorized), DiscardRefreshToken(db, rfTokenStr).0)
    else
      var (ok, err) := UserHasRefreshToken(db, p.token.body.sub, rfTokenStr);
      if err.Some? then Outcome(Status(StatusInternalServerError), db)
      else if !ok then Outcome(Status(StatusUnauthorized), db)
      else if req.aud == "" then Outcome(Status(StatusBadRequest), db)
      else
        var j := Mint(s.issuer, p.token.body.sub, req.aud, JwtTTL, ctx.now, ctx.jti);
        Outcome(Response(StatusOK, Stringify(s.issuer, s.sg, s.js, j, ctx.salt)), db)
  }

  /** `handleLogout`: only parse and signature are checked; an expired or
      superseded token is still discarded */
  function HandleLogout(s: Server, db: Db, req: Request): (r: Outcome)
    ensures var p := Parse(s.js, req.authorization);
            p.err.None? && SignatureOk(s.sg, s.js, s.audience, p.token) ==>
              && r.db == DiscardRefreshToken(db, req.authorization).0
              && (r.response.status == StatusOK <==> db.up)
    ensures var p := Parse(s.js, req.authorization);
            !(p.err.None? && SignatureOk(s.sg, s.js, s.audience, p.token)) ==>
              r == Outcome(Status(StatusUnauthorized), db)
  {
    var p := Parse(s.js, req.authorization);
    if p.err.Some? then Outcome(Status(StatusUnauthorized), db)
    else if !SignatureOk(s.sg, s.js, s.audience, p.token) then Outcome(Status(StatusUnauthorized), db)
    else
      var (db', err) := DiscardRefreshToken(db, req.authorization);
      if err.Some? then Outcome(Status(StatusInternalServerError), db')
      else Outcome(Status(StatusOK), db')
  }

  /** The refresh token a successful login issues */
  function LoginToken(s: Server, username: string, ctx: Context): Jwt
  {
    Mint(s.issuer, GetUidFor(s.hash, username), s.issuer.identifier, RefreshTokenTTL, ctx.now, ctx.jti)
  }

  /** `handlePasswordLogin` as written: the token is stringified twice, once
      for the store (`PutRefreshToken`, taken to be `SetRefreshToken`) and
      once for the response, each signature with its own random salt */
  function HandlePasswordLogin(s: Server, db: Db, req: Request, ctx: Context): (r: Outcome)
    ensures req.credentials.None? ==> r == Outcome(Status(StatusBadRequest), db)
    ensures req.credentials.Some? ==>
              var c := req.credentials.value;
              var v := VerifyPassword(s.hash, db, c.username, c.password);
              && (v.1 == Some(NoSuchUserError(c.username)) ==> r == Outcome(Status(StatusNotFound), db))
              && (v == (false, None) ==> r == Outcome(Status(StatusUnauthorized), db))
              && (v.0 ==> var rf := LoginToken(s, c.username, ctx);
                          && r.response == Response(StatusOK, Stringify(s.issuer, s.sg, s.js, rf, ctx.salt2))
                          && r.db == SetRefreshToken(db, Stringify(s.issuer, s.sg, s.js, rf, ctx.salt),
                                                     GetUidFor(s.hash, c.username)).0)
    ensures r.response.status != StatusOK ==> r.db == db
  {
    match req.credentials
    case None => Outcome(Status(StatusBadRequest), db)
    case Some(c) =>
      var (ok, err) := VerifyPassword(s.hash, db, c.username, c.password);
      if err.Some? then
        if err.value.NoSuchUserError? then Outcome(Status(StatusNotFound), db)
        else Outcome(Status(StatusInternalServerError), db)
      else if !ok then Outcome(Status(StatusUnauthorized), db)
      else
        var rfToken := LoginToken(s, c.username, ctx);
        var (db', _) := SetRefreshToken(db, Stringify(s.issuer, s.sg, s.js, rfToken, ctx.salt), rfToken.body.sub);
        Outcome(Response(StatusOK, Stringify(s.issuer, s.sg, s.js, rfToken, ctx.salt2)), db')
  }

  /** Two signatures that differ give two different token strings */
  lemma DistinctSignaturesDistinctStrings(s: Server, j: Jwt, salt1: Bytes, salt2: Bytes)
    requires IssuerSignature(s.issuer, s.sg, s.js, j, salt1) != IssuerSignature(s.issuer, s.sg, s.js, j, salt2)
    ensures Stringify(s.issuer, s.sg, s.js, j, salt1) != Stringify(s.issuer, s.sg, s.js, j, salt2)
  {
    var sig1 := IssuerSignature(s.issuer, s.sg, s.js, j, salt1);
    var sig2 := IssuerSignature(s.issuer, s.sg, s.js, j, salt2);
    DecodeEncode(sig1);
    DecodeEncode(sig2);
    assert Strings.Split(Stringify(s.issuer, s.sg, s.js, j, salt1), '.')[2] == Encode(sig1);
    assert Strings.Split(Stringify(s.issuer, s.sg, s.js, j, salt2), '.')[2] == Encode(sig2);
  }

  /** When the two salts give two signatures, the token a successful login
      returns is not the one it stored, so it is never current and `/jwt`
      refuses it */
  lemma LoginReturnsUnstoredToken(s: Server, db: Db, creds: Credentials, ctx: Context, later: Context, aud: string)
    requires Valid(db) && BodyRoundTrips(s.js)
    requires HandlePasswordLogin(s, db, Request("", "", Some(creds)), ctx).response.status == StatusOK
    requires var rf := LoginToken(s, creds.username, ctx);
             IssuerSignature(s.issuer, s.sg, s.js, rf, ctx.salt) != IssuerSignature(s.issuer, s.sg, s.js, rf, ctx.salt2)
    ensures var login := HandlePasswordLogin(s, db, Request("", "", Some(creds)), ctx);
            && UserHasRefreshToken(login.db, GetUidFor(s.hash, creds.username), login.response.body) == (false, None)
            && HandleMakeJwt(s, login.db, Request(login.response.body, aud, None), later).response.status
               == StatusUnauthorized
  {
    var login := HandlePasswordLogin(s, db, Request("", "", Some(creds)), ctx);
    var uid := GetUidFor(s.hash, creds.username);
    var rf := LoginToken(s, creds.username, ctx);
    DistinctSignaturesDistinctStrings(s, rf, ctx.salt, ctx.salt2);
    assert uid in db.users;
    assert login.db.users[uid].refreshToken == Stringify(s.issuer, s.sg, s.js, rf, ctx.salt);
    StringifyParsesBack(s.issuer, s.sg, s.js, rf, ctx.salt2);
  }

  /** `handlePasswordLogin` as evidently intended: stringify once, and store
      and return that same string, as the middleware version does */
  function HandlePasswordLoginOnce(s: Server, db: Db, req: Request, ctx: Context): (r: Outcome)
    ensures req.credentials.None? ==> r == Outcome(Status(StatusBadRequest), db)
    ensures r.response.status != StatusOK ==> r.db == db
    ensures r.response.status == StatusOK && req.credentials.Some? && db.up ==>
              GetUidFor(s.hash, req.credentials.value.username) in db.users ==>
              UserHasRefreshToken(r.db, GetUidFor(s.hash, req.credentials.value.username), r.response.body)
              == (true, None)
  {
    match req.credentials
    case None => Outcome(Status(StatusBadRequest), db)
    case Some(c) =>
      var (ok, err) := VerifyPassword(s.hash, db, c.username, c.password);
      if err.Some? then
        if err.value.NoSuchUserError? then Outcome(Status(StatusNotFound), db)
        else Outcome(Status(StatusInternalServerError), db)
      else if !ok then Outcome(Status(StatusUnauthorized), db)
      else
        var rfToken := LoginToken(s, c.username, ctx);
        var rft := Stringify(s.issuer, s.sg, s.js, rfToken, ctx.salt);
        var (db', _) := SetRefreshToken(db, rft, rfToken.body.sub);
        Outcome(Response(StatusOK, rft), db')
  }

  /** `ConfigureRoutes`: no middleware on any route, and `/login` is the
      as-written login that stores one stringification and returns another */
  function Serve(s: Server, route: Route, db: Db, req: Request, ctx: Context): (r: Outcome)
    ensures route == RegisterRoute ==> r == HandleRegisterUser(s.hash, db, req, ctx)
    ensures route == LoginRoute ==> r == HandlePasswordLogin(s, db, req, ctx)
    ensures route == JwtRoute ==> r == HandleMakeJwt(s, db, req, ctx)
    ensures route == LogoutRoute ==> r == HandleLogout(s, db, req)
    ensures route in {JwtRoute, LogoutRoute} && Parse(s.js, req.authorization).err.Some? ==>
              r == Outcome(Status(StatusUnauthorized), db)
    ensures route == LoginRoute && r.response.status == StatusOK ==>
              var uid := GetUidFor(s.hash, req.credentials.value.username);
              var rf := LoginToken(s, req.credentials.value.username, ctx);
              && r.response.body == Stringify(s.issuer, s.sg, s.js, rf, ctx.salt2)
              && r.db == SetRefreshToken(db, Stringify(s.issuer, s.sg, s.js, rf, ctx.salt), uid).0
  {
    match route
    case RegisterRoute => HandleRegisterUser(s.hash, db, req, ctx)
    case LoginRoute => HandlePasswordLogin(s, db, req, ctx)
    case JwtRoute => HandleMakeJwt(s, db, req, ctx)
    case LogoutRoute => HandleLogout(s, db, req)
  }

  /** A token string in the six-piece form the as-written `StringifyJwt`
      produces is refused by `/jwt` and `/logout` alike, and the table is
      left as it was */
  lemma AsWrittenTokenRefused(s: Server, route: Route, db: Db, req: Request, ctx: Context, j: Jwt, salt: Bytes)
    requires route in {JwtRoute, LogoutRoute}
    requires req.authorization == StringifyJwt(s.issuer, s.sg, s.js, j, salt)
    ensures Serve(s, route, db, req, ctx) == Outcome(Status(StatusUnauthorized), db)
  {
    StringifyJwtHasSixSegments(s.issuer, s.sg, s.js, j, salt);
  }

  /** A bad token is refused with 401 even when the audience is missing too:
      the audience is looked at last */
  lemma BadTokenBeforeMissingAudience(s: Server, db: Db, req: Request, ctx: Context)
    requires req.aud == ""
    requires Parse(s.js, req.authorization).err.Some?
    ensures HandleMakeJwt(s, db, req, ctx).response.status == StatusUnauthorized
  {
  }

  /** Logout discards even an expired or superseded token, and discarding twice is harmless */
  lemma LogoutIdempotent(s: Server, db: Db, req: Request)
    ensures HandleLogout(s, HandleLogout(s, db, req).db, req) == HandleLogout(s, db, req)
  {
    DiscardIdempotent(db, req.authorization);
  }
}

=== FILE: base64url.dfy ===
/** Raw (unpadded) base64url, the URL- and filename-safe alphabet of section 5
    of RFC 4648 with padding switched off, as Go's `base64.RawURLEncoding`
    encodes and decodes it.

    Decoding follows the library's lenient mode: carriage returns and line
    feeds are skipped, any other character outside the alphabet (the padding
    character `=` included) is an error, a final group of a single character
    is an error, and the unused low bits of a final group of two or three
    characters are ignored. */
module Base64Url {
  import opened Wrappers

  type byte = x: int | 0 <= x < 256
  type Bytes = seq<byte>
  type sextet = x: int | 0 <= x < 64

  /** The character that stands for a six-bit value */
  function SextetChar(v: sextet): char
  {
    if v < 26 then ('A' as int + v) as char
    else if v < 52 then ('a' as int + (v - 26)) as char
    else if v < 62 then ('0' as int + (v - 52)) as char
    else if v == 62 then '-'
    else '_'
  }

  predicate IsAlphabet(c: char)
  {
    ('A' <= c <= 'Z') || ('a' <= c <= 'z') || ('0' <= c <= '9') || c == '-' || c == '_'
  }

  predicate IsNewline(c: char)
  {
    c == '\n' || c == '\r'
  }

  predicate AllAlphabet(s: string)
  {
    forall i :: 0 <= i < |s| ==> IsAlphabet(s[i])
  }

  /** The six-bit value an alphabet character stands for; the inverse of SextetChar */
  function CharValue(c: char): (v: sextet)
    requires IsAlphabet(c)
    ensures SextetChar(v) == c
  {
    if 'A' <= c <= 'Z' then c as int - 'A' as int
    else if 'a' <= c <= 'z' then c as int - 'a' as int + 26
    else if '0' <= c <= '9' then c as int - '0' as int + 52
    else if c == '-' then 62
    else 63
  }

  lemma SextetCharRoundTrip(v: sextet)
    ensures IsAlphabet(SextetChar(v))
    ensures CharValue(SextetChar(v)) == v
  {
  }

  /** Four characters for three bytes */
  function EncodeQuantum(b0: byte, b1: byte, b2: byte): (s: string)
    ensures |s| == 4 && AllAlphabet(s)
  {
    SextetCharRoundTrip(b0 / 4);
    SextetCharRoundTrip((b0 % 4) * 16 + b1 / 16);
    SextetCharRoundTrip((b1 % 16) * 4 + b2 / 64);
    SextetCharRoundTrip(b2 % 64);
    [SextetChar(b0 / 4), SextetChar((b0 % 4) * 16 + b1 / 16),
     SextetChar((b1 % 16) * 4 + b2 / 64), SextetChar(b2 % 64)]
  }

  /** `RawURLEncoding.EncodeToString`: a final group of one or two bytes
      becomes two or three characters, with no padding */
  function Encode(b: Bytes): (s: string)
    ensures AllAlphabet(s)
    ensures |s| % 4 != 1
    ensures |s| == (8 * |b| + 5) / 6
    decreases |b|
  {
    if |b| == 0 then ""
    else if |b| == 1 then
      SextetCharRoundTrip(b[0] / 4);
      SextetCharRoundTrip((b[0] % 4) * 16);
      [SextetChar(b[0] / 4), SextetChar((b[0] % 4) * 16)]
    else if |b| == 2 then
      SextetCharRoundTrip(b[0] / 4);
      SextetCharRoundTrip((b[0] % 4) * 16 + b[1] / 16);
      SextetCharRoundTrip((b[1] % 16) * 4);
      [SextetChar(b[0] / 4), SextetChar((b[0] % 4) * 16 + b[1] / 16), SextetChar((b[1] % 16) * 4)]
    else
      EncodeQuantum(b[0], b[1], b[2]) + Encode(b[3..])
  }

  /** The input with every carriage return and line feed removed */
  function StripNewlines(s: string): (t: string)
    ensures forall i :: 0 <= i < |t| ==> !IsNewline(t[i])
    ensures |t| <= |s|
  {
    if |s| == 0 then ""
    else if IsNewline(s[0]) then StripNewlines(s[1..])
    else [s[0]] + StripNewlines(s[1..])
  }

  /** The bytes of one final or complete group of two, three or four characters */
  function DecodeGroup(g: string): Bytes
    requires 2 <= |g| <= 4 && AllAlphabet(g)
  {
    var first := CharValue(g[0]) * 4 + CharValue(g[1]) / 16;
    if |g| == 2 then [first]
    else
      var second := (CharValue(g[1]) % 16) * 16 + CharValue(g[2]) / 4;
      if |g| == 3 then [first, second]
      else [first, second, (CharValue(g[2]) % 4) * 64 + CharValue(g[3])]
  }

  /** Decoding of newline-free text made only of alphabet characters whose
      length leaves no single-character final group */
  function DecodeValid(t: string): Bytes
    requires AllAlphabet(t)
    requires |t| % 4 != 1
    decreases |t|
  {
    if |t| == 0 then []
    else if |t| < 4 then DecodeGroup(t)
    else DecodeGroup(t[..4]) + DecodeValid(t[4..])
  }

  /** `RawURLEncoding.DecodeString`: None stands for the returned error */
  function Decode(s: string): (r: Option<Bytes>)
    ensures r.Some? <==> AllAlphabet(StripNewlines(s)) && |StripNewlines(s)| % 4 != 1
  {
    var t := StripNewlines(s);
    if AllAlphabet(t) && |t| % 4 != 1 then Some(DecodeValid(t)) else None
  }

  lemma {:induction false} StripNewlinesOfAlphabet(s: string)
    requires AllAlphabet(s)
    ensures StripNewlines(s) == s
    decreases |s|
  {
    if |s| > 0 {
      StripNewlinesOfAlphabet(s[1..]);
    }
  }

  /** Splitting a byte's bits across two sextets and joining them back gives the byte */
  lemma SplitBits(hi: byte, lo: byte)
    ensures ((hi % 4) * 16 + lo / 16) / 16 == hi % 4
    ensures ((hi % 4) * 16 + lo / 16) % 16 == lo / 16
    ensures ((hi % 16) * 4 + lo / 64) / 4 == hi % 16
    ensures ((hi % 16) * 4 + lo / 64) % 4 == lo / 64
  {
  }

  /** The three bytes a group of four characters decodes to, in terms of their sextets */
  lemma DecodeFour(v0: sextet, v1: sextet, v2: sextet, v3: sextet)
    ensures AllAlphabet([SextetChar(v0), SextetChar(v1), SextetChar(v2), SextetChar(v3)])
    ensures DecodeGroup([SextetChar(v0), SextetChar(v1), SextetChar(v2), SextetChar(v3)])
            == [v0 * 4 + v1 / 16, (v1 % 16) * 16 + v2 / 4, (v2 % 4) * 64 + v3]
  {
    SextetCharRoundTrip(v0);
    SextetCharRoundTrip(v1);
    SextetCharRoundTrip(v2);
    SextetCharRoundTrip(v3);
  }

  lemma QuantumRoundTrip(b0: byte, b1: byte, b2: byte)
    ensures DecodeValid(EncodeQuantum(b0, b1, b2)) == [b0, b1, b2]
  {
    var q := EncodeQuantum(b0, b1, b2);
    var v0: sextet := b0 / 4;
    var v1: sextet := (b0 % 4) * 16 + b1 / 16;
    var v2: sextet := (b1 % 16) * 4 + b2 / 64;
    var v3: sextet := b2 % 64;
    assert q == [SextetChar(v0), SextetChar(v1), SextetChar(v2), SextetChar(v3)];
    DecodeFour(v0, v1, v2, v3);
    SplitBits(b0, b1);
    SplitBits(b1, b2);
    assert v0 * 4 + v1 / 16 == b0;
    assert (v1 % 16) * 16 + v2 / 4 == b1;
    assert (v2 % 4) * 64 + v3 == b2;
    assert q[..4] == q && q[4..] == "";
    assert DecodeValid(q) == DecodeGroup(q);
  }

  lemma OneByteRoundTrip(b0: byte)
    ensures DecodeValid(Encode([b0])) == [b0]
  {
    SextetCharRoundTrip(b0 / 4);
    SextetCharRoundTrip((b0 % 4) * 16);
  }

  lemma TwoByteRoundTrip(b0: byte, b1: byte)
    ensures DecodeValid(Encode([b0, b1])) == [b0, b1]
  {
    var v1: sextet := (b0 % 4) * 16 + b1 / 16;
    var v2: sextet := (b1 % 16) * 4;
    SextetCharRoundTrip(b0 / 4);
    SextetCharRoundTrip(v1);
    SextetCharRoundTrip(v2);
    SplitBits(b0, b1);
    SplitBits(b1, 0);
    var t := Encode([b0, b1]);
    assert t == [SextetChar(b0 / 4), SextetChar(v1), SextetChar(v2)];
    assert DecodeValid(t) == DecodeGroup(t);
  }

  lemma DecodeValidAfterQuantum(q: string, rest: string)
    requires |q| == 4 && AllAlphabet(q) && AllAlphabet(rest) && |rest| % 4 != 1
    ensures AllAlphabet(q + rest)
    ensures DecodeValid(q + rest) == DecodeValid(q) + DecodeValid(rest)
  {
    var t := q + rest;
    assert t[4..] == rest;
    assert q[4..] == "" && q[..4] == q;
    assert t[..4] == q;
  }

  lemma {:induction false} DecodeValidEncode(b: Bytes)
    ensures DecodeValid(Encode(b)) == b
    decreases |b|
  {
    if |b| == 0 {
    } else if |b| == 1 {
      assert b == [b[0]];
      OneByteRoundTrip(b[0]);
    } else if |b| == 2 {
      assert b == [b[0], b[1]];
      TwoByteRoundTrip(b[0], b[1]);
    } else {
      var q := EncodeQuantum(b[0], b[1], b[2]);
      var rest := Encode(b[3..]);
      DecodeValidAfterQuantum(q, rest);
      QuantumRoundTrip(b[0], b[1], b[2]);
      DecodeValidEncode(b[3..]);
      assert b == [b[0], b[1], b[2]] + b[3..];
    }
  }

  /** Decoding what was encoded gives back the same bytes, for every byte string */
  lemma DecodeEncode(b: Bytes)
    ensures Decode(Encode(b)) == Some(b)
  {
    StripNewlinesOfAlphabet(Encode(b));
    DecodeValidEncode(b);
  }

  /** Encoded text never holds a `.`, so it can stand as one segment of a dotted token */
  lemma EncodeHasNoDot(b: Bytes)
    ensures '.' !in Encode(b)
  {
  }

  /** Padded input is refused: `=` is not a character of the unpadded alphabet */
  lemma {:induction false} PaddingRejected(s: string)
    requires '=' in s
    ensures Decode(s) == None
    decreases |s|
  {
    var t := StripNewlines(s);
    assert '=' in t by { PaddingSurvivesStrip(s); }
    var i :| 0 <= i < |t| && t[i] == '=';
    assert !IsAlphabet(t[i]);
  }

  lemma {:induction false} PaddingSurvivesStrip(s: string)
    requires '=' in s
    ensures '=' in StripNewlines(s)
    decreases |s|
  {
    if s[0] != '=' {
      assert '=' in s[1..];
      PaddingSurvivesStrip(s[1..]);
    }
  }
}

=== FILE: chat_socket.dfy ===
/** The chat socket of the message service
    (services/message/chat/socket.go): a connection carrying stored-message
    records as JSON, one per value. The `chat.Message` type declared in the
    same file is never used; the socket carries the table's `Message`. */
module ChatSocket {
  import opened Wrappers
  import opened Base64Url
  import opened Framing
  import opened MessageDb

  /** Go's zero value `database.Message{}` */
  const ZeroMessage: Message := Message("", "", "")

  type Socket = Endpoint

  /** `NewSocket`: an open socket over the connection, nothing written yet */
  function NewSocket(conn: nat, incoming: seq<Bytes>): (s: Socket)
    ensures s.open && s.conn == conn && s.incoming == incoming && s.outgoing == []
  {
    Endpoint(conn, incoming, [], true)
  }

  /** `ReadMessage`: the next message, or the zero message beside the error */
  function ReadMessage(c: Codec<Message>, s: Socket): (r: (Message, Option<StreamError>, Socket))
    ensures r.1.None? <==> s.open && |s.incoming| > 0 && c.decode(s.incoming[0]).Some?
    ensures r.1.None? ==> c.decode(s.incoming[0]) == Some(r.0) && r.2.incoming == s.incoming[1..]
    ensures r.1.Some? ==> r.0 == ZeroMessage
  {
    Receive(c, ZeroMessage, s)
  }

  /** `WriteMessage`: one more frame, unless the socket is closed */
  function WriteMessage(c: Codec<Message>, s: Socket, m: Message): (r: (Socket, Option<StreamError>))
    ensures r.1.None? <==> s.open
    ensures s.open ==> r.0.outgoing == s.outgoing + [c.encode(m)]
    ensures r.0.incoming == s.incoming && r.0.open == s.open
  {
    Send(c, s, m)
  }

  /** A message written on one socket is what the reader at the other end reads */
  lemma WriteThenRead(c: Codec<Message>, writer: Socket, reader: Socket, m: Message)
    requires RoundTrips(c) && writer.open && reader.open
    requires reader.incoming == WriteMessage(c, writer, m).0.outgoing[|writer.outgoing|..]
    ensures ReadMessage(c, reader) == (m, None, reader.(incoming := []))
  {
    assert reader.incoming == [c.encode(m)];
    assert c.decode(c.encode(m)) == Some(m);
    assert reader.incoming[1..] == [];
  }

  /** `ChannelMessages`: hand every message read on to the relay, and return
      at the first read error — the peer closing, the socket being closed, or
      a frame that is not a message */
  method ChannelMessages(c: Codec<Message>, s: Socket) returns (forwarded: seq<Message>, s': Socket)
    ensures !s.open ==> forwarded == []
    ensures s.open ==> forwarded == DecodedPrefix(c, s.incoming)
    ensures |forwarded| <= |s.incoming|
    ensures forall i :: 0 <= i < |forwarded| ==> c.decode(s.incoming[i]) == Some(forwarded[i])
    ensures s'.conn == s.conn && s'.open == s.open
  {
    forwarded, s' := ReceiveUntilError(c, ZeroMessage, s);
  }

  /** When the peer writes some messages and then hangs up, exactly those
      messages are handed on, in the order written */
  lemma PeerMessagesChannelled(c: Codec<Message>, conn: nat, ms: seq<Message>)
    requires RoundTrips(c)
    ensures DecodedPrefix(c, NewSocket(conn, Encoded(c, ms)).incoming) == ms
  {
    WrittenValuesReadBack(c, ms, []);
    assert Encoded(c, ms) + [] == Encoded(c, ms);
  }

  /** `Close`: the socket is closed, and every later read fails */
  function CloseSocket(s: Socket): (r: Socket)
    ensures !r.open && r.conn == s.conn
    ensures forall c: Codec<Message> :: ReadMessage(c, r) == (ZeroMessage, Some(Closed), r)
  {
    Close(s)
  }
}

=== FILE: framing.dfy ===
/** A JSON-encoded connection, as both socket wrappers use it
    (services/message/chat/socket.go and socket/socket.go): a `json.Encoder`
    writing one value per call and a `json.Decoder` reading values back in
    order.

    A stream is the sequence of encoded values, one frame per value written;
    the JSON codec itself is a pair of functions (`Codec`) and the only
    property assumed of it is `RoundTrips`. A frame that does not decode is
    a read error and is consumed. */
module Framing {
  import opened Wrappers
  import opened Base64Url

  datatype Codec<!T> = Codec(encode: T -> Bytes, decode: Bytes -> Option<T>)

  /** Decoding what was encoded gives the value back */
  ghost predicate RoundTrips<T(!new)>(c: Codec<T>)
  {
    forall x: T :: c.decode(c.encode(x)) == Some(x)
  }

  datatype StreamError = EndOfStream | Malformed | Closed

  /** One end of a connection: its identity, the frames still to be read,
      the frames written so far, and whether it has been closed */
  datatype Endpoint = Endpoint(conn: nat, incoming: seq<Bytes>, outgoing: seq<Bytes>, open: bool)

  /** `decoder.Decode(&v)`: the next value, or Go's zero value `zero`
      beside an error */
  function Receive<T>(c: Codec<T>, zero: T, e: Endpoint): (r: (T, Option<StreamError>, Endpoint))
    ensures !e.open ==> r == (zero, Some(Closed), e)
    ensures e.open && |e.incoming| == 0 ==> r == (zero, Some(EndOfStream), e)
    ensures r.1.None? <==> e.open && |e.incoming| > 0 && c.decode(e.incoming[0]).Some?
    ensures r.1.None? ==> Some(r.0) == c.decode(e.incoming[0])
    ensures r.1.Some? ==> r.0 == zero
    ensures e.open && |e.incoming| > 0 ==> r.2 == e.(incoming := e.incoming[1..])
  {
    if !e.open then (zero, Some(Closed), e)
    else if |e.incoming| == 0 then (zero, Some(EndOfStream), e)
    else
      var rest := e.(incoming := e.incoming[1..]);
      match c.decode(e.incoming[0])
      case None => (zero, Some(Malformed), rest)
      case Some(v) => (v, None, rest)
  }

  /** `encoder.Encode(v)`: one more frame on an open connection */
  function Send<T>(c: Codec<T>, e: Endpoint, x: T): (r: (Endpoint, Option<StreamError>))
    ensures !e.open ==> r == (e, Some(Closed))
    ensures e.open ==> r.1.None? && r.0 == e.(outgoing := e.outgoing + [c.encode(x)])
  {
    if !e.open then (e, Some(Closed))
    else (e.(outgoing := e.outgoing + [c.encode(x)]), None)
  }

  /** `Conn.Close()` */
  function Close(e: Endpoint): (r: Endpoint)
    ensures !r.open && r.conn == e.conn && r.outgoing == e.outgoing
  {
    e.(open := false)
  }

  /** The frames a sequence of values is written as, in order */
  function Encoded<T>(c: Codec<T>, xs: seq<T>): (fs: seq<Bytes>)
    ensures |fs| == |xs|
    ensures forall i :: 0 <= i < |xs| ==> fs[i] == c.encode(xs[i])
  {
    seq(|xs|, i requires 0 <= i < |xs| => c.encode(xs[i]))
  }

  /** Writing one more value adds its frame at the end */
  lemma EncodedSnoc<T>(c: Codec<T>, xs: seq<T>, x: T)
    ensures Encoded(c, xs + [x]) == Encoded(c, xs) + [c.encode(x)]
  {
    assert forall i :: 0 <= i < |xs| ==> (xs + [x])[i] == xs[i];
  }

  /** Reading the first frame leaves the frames of the remaining values */
  lemma EncodedTail<T>(c: Codec<T>, xs: seq<T>)
    requires |xs| > 0
    ensures Encoded(c, xs)[1..] == Encoded(c, xs[1..])
  {
  }

  /** The values of the longest run of decodable frames at the front of a stream */
  function DecodedPrefix<T>(c: Codec<T>, frames: seq<Bytes>): (xs: seq<T>)
    ensures |xs| <= |frames|
    ensures forall i :: 0 <= i < |xs| ==> c.decode(frames[i]) == Some(xs[i])
    ensures |xs| < |frames| ==> c.decode(frames[|xs|]).None?
  {
    if |frames| == 0 then []
    else match c.decode(frames[0])
      case None => []
      case Some(v) => [v] + DecodedPrefix(c, frames[1..])
  }

  /** The three properties of `DecodedPrefix` determine it */
  lemma {:induction false} PrefixDetermined<T>(c: Codec<T>, frames: seq<Bytes>, xs: seq<T>)
    requires |xs| <= |frames|
    requires forall i :: 0 <= i < |xs| ==> c.decode(frames[i]) == Some(xs[i])
    requires |xs| < |frames| ==> c.decode(frames[|xs|]).None?
    ensures xs == DecodedPrefix(c, frames)
  {
    if |frames| > 0 && |xs| > 0 {
      assert forall i :: 0 <= i < |xs[1..]| ==> frames[1..][i] == frames[i + 1] && xs[1..][i] == xs[i + 1];
      PrefixDetermined(c, frames[1..], xs[1..]);
      assert xs == [xs[0]] + xs[1..];
    }
  }

  /** The read loop shared by `ChannelMessages` and the corrected `Listen`:
      receive until the first error, handing on every value received. The
      handed-on values are the decodable run at the front of the stream and
      the endpoint is left just past the frame that failed. */
  method ReceiveUntilError<T>(c: Codec<T>, zero: T, e: Endpoint) returns (values: seq<T>, e': Endpoint)
    ensures !e.open ==> values == [] && e' == e
    ensures e.open ==> values == DecodedPrefix(c, e.incoming)
    ensures e.open ==> e'.incoming == e.incoming[if |values| < |e.incoming| then |values| + 1 else |values|..]
    ensures e'.conn == e.conn && e'.outgoing == e.outgoing && e'.open == e.open
  {
    values := [];
    e' := e;
    if !e.open {
      return;
    }
    while true
      invariant |values| <= |e.incoming|
      invariant e' == e.(incoming := e.incoming[|values|..])
      invariant forall i :: 0 <= i < |values| ==> c.decode(e.incoming[i]) == Some(values[i])
      decreases |e'.incoming|
    {
      var r := Receive(c, zero, e');
      if r.1.Some? {
        if |e'.incoming| > 0 {
          e' := r.2;
        }
        break;
      }
      values := values + [r.0];
      e' := r.2;
    }
    PrefixDetermined(c, e.incoming, values);
  }

  /** Values written in order are read back in order, and a frame that does
      not decode ends the run */
  lemma {:induction false} WrittenValuesReadBack<T(!new)>(c: Codec<T>, xs: seq<T>, tail: seq<Bytes>)
    requires RoundTrips(c)
    requires |tail| > 0 ==> c.decode(tail[0]).None?
    ensures DecodedPrefix(c, Encoded(c, xs) + tail) == xs
  {
    var frames := Encoded(c, xs) + tail;
    forall i | 0 <= i < |xs| ensures c.decode(frames[i]) == Some(xs[i]) {
      assert frames[i] == c.encode(xs[i]);
    }
    if |xs| < |frames| {
      assert frames[|xs|] == tail[0];
    }
    PrefixDetermined(c, frames, xs);
  }
}

=== FILE: http.dfy ===
/** The HTTP vocabulary the handlers use: request methods, the status codes
    they write, and a response reduced to its status and body text. */
module Http {

  const StatusOK: int := 200
  const StatusBadRequest: int := 400
  const StatusUnauthorized: int := 401
  const StatusNotFound: int := 404
  const StatusMethodNotAllowed: int := 405
  const StatusConflict: int := 409
  const StatusInternalServerError: int := 500

  datatype Method = Get | Post | OtherMethod(name: string)

  /** A status and the body text written with it (empty for error replies,
      whose message text is not modelled) */
  datatype Response = Response(status: int, body: string)

  function Status(code: int): Response
  {
    Response(code, "")
  }
}

=== FILE: jwt.dfy ===
/** The bearer-token value and its dotted wire form (jwt/jwt.go).

    A token is the compact serialization of section 7.1 of RFC 7515: three
    raw base64url segments (header, body, signature) joined by `.`, with the
    claim names of section 4.1 of RFC 7519. The repository's own token type
    only ever grew fields across versions, so one datatype holds all of them:
    `sub`, `aud`, `iss`, `exp` (Unix seconds) and `jti`, and a signature.

    JSON marshalling (`toBytes`, `json.Unmarshal`) and the placeholder keyed
    MAC behind `Signature` are not modelled; they are function-valued
    parameters, and the one property of JSON a round trip needs is the
    hypothesis `BodyRoundTrips`. */
module Jwt {
  import opened Wrappers
  import opened Base64Url
  import Strings

  const ALG: string := "RS256"
  const TYP: string := "JWT"

  datatype Header = Header(alg: string, typ: string)
  datatype Body = Body(sub: string, aud: string, iss: string, exp: int, jti: string)
  datatype Jwt = Jwt(header: Header, body: Body, signature: Bytes)

  /** The header every token carries, whatever its wire text says */
  const DefaultHeader: Header := Header(ALG, TYP)

  /** Go's zero value `Jwt{}`, returned beside every error */
  const Zero: Jwt := Jwt(Header("", ""), Body("", "", "", 0, ""), [])

  /** The JSON encoder of header and body and the decoder of a body */
  datatype Json = Json(header: Header -> Bytes, body: Body -> Bytes, parseBody: Bytes -> Option<Body>)

  /** Unmarshalling what was marshalled gives the same body back */
  ghost predicate BodyRoundTrips(js: Json)
  {
    forall b: Body :: js.parseBody(js.body(b)) == Some(b)
  }

  /** A keyed MAC: message bytes and key bytes to tag bytes */
  type Mac = (Bytes, Bytes) -> Bytes

  datatype JwtError = ParseError | VerifyError

  /** Go's `(Jwt, error)` pair */
  datatype Parsed = Parsed(token: Jwt, err: Option<JwtError>)

  /** `New`: a token for a subject with the fixed header and no other claims */
  function New(sub: string): (j: Jwt)
    ensures j.header == DefaultHeader && j.body.sub == sub
  {
    Jwt(DefaultHeader, Body(sub, "", "", 0, ""), [])
  }

  /** The byte string a signature covers: header bytes followed by body bytes */
  function SigningInput(js: Json, h: Header, b: Body): Bytes
  {
    js.header(h) + js.body(b)
  }

  /** `Jwt.Signature`: the keyed MAC of header and body */
  function Signature(js: Json, mac: Mac, j: Jwt, key: Bytes): Bytes
  {
    mac(SigningInput(js, j.header, j.body), key)
  }

  /** `Jwt.VerifySignature`: the claimed signature equals the recomputed one */
  function VerifySignature(js: Json, mac: Mac, j: Jwt, claim: Bytes, key: Bytes): bool
  {
    claim == Signature(js, mac, j, key)
  }

  /** The three-segment wire text of a header, a body and a signature */
  function Serialize(js: Json, h: Header, b: Body, sig: Bytes): (s: string)
    ensures Strings.Split(s, '.') == [Encode(js.header(h)), Encode(js.body(b)), Encode(sig)]
  {
    var parts := [Encode(js.header(h)), Encode(js.body(b)), Encode(sig)];
    EncodeHasNoDot(js.header(h));
    EncodeHasNoDot(js.body(b));
    EncodeHasNoDot(sig);
    Strings.SplitJoin(parts, '.');
    Strings.Join(parts, '.')
  }

  /** `Jwt.String`: exactly three segments, the encoded header bytes, body
      bytes and MAC, in that order */
  function String(js: Json, mac: Mac, j: Jwt, key: Bytes): (s: string)
    ensures Strings.Split(s, '.') ==
            [Encode(js.header(j.header)), Encode(js.body(j.body)), Encode(Signature(js, mac, j, key))]
  {
    Serialize(js, j.header, j.body, Signature(js, mac, j, key))
  }

  /** `FromString`. The header segment is never decoded; the result is
      rebuilt by `New` from the body's subject and then checked against the MAC. */
  function FromString(js: Json, mac: Mac, s: string, key: Bytes): (r: Parsed)
    ensures r.err.Some? ==> r.token == Zero
    ensures |Strings.Split(s, '.')| != 3 ==> r.err == Some(ParseError)
    ensures |Strings.Split(s, '.')| == 3 &&
            (Decode(Strings.Split(s, '.')[1]).None? || Decode(Strings.Split(s, '.')[2]).None?)
            ==> r.err == Some(ParseError)
    ensures var parts := Strings.Split(s, '.');
            |parts| == 3 && Decode(parts[1]).Some? && Decode(parts[2]).Some? ==>
              var parsed := js.parseBody(Decode(parts[1]).value);
              && (parsed.None? ==> r.err == Some(ParseError))
              && (parsed.Some? ==>
                    var claim := Decode(parts[2]).value;
                    && (r.err.None? <==> VerifySignature(js, mac, New(parsed.value.sub), claim, key))
                    && (r.err.None? ==> r.token == New(parsed.value.sub))
                    && (r.err.Some? ==> r.err == Some(VerifyError)))
    ensures r.err == None ==> r.token == New(r.token.body.sub)
  {
    var parts := Strings.Split(s, '.');
    if |parts| != 3 then Parsed(Zero, Some(ParseError))
    else
      var body := Decode(parts[1]);
      var claim := Decode(parts[2]);
      if body.None? || claim.None? then Parsed(Zero, Some(ParseError))
      else
        match js.parseBody(body.value)
        case None => Parsed(Zero, Some(ParseError))
        case Some(parsedBody) =>
          var j := New(parsedBody.sub);
          if !VerifySignature(js, mac, j, claim.value, key) then Parsed(Zero, Some(VerifyError))
          else Parsed(j, None)
  }

  /** The one-argument parser the services call (`jwt.Parse`, and the later
      `FromString` without a key). Its source is not part of this model; it is
      taken to make `FromString`'s checks, without the MAC, and to keep the
      decoded signature and the whole decoded body. */
  function Parse(js: Json, s: string): (r: Parsed)
    ensures r.err.Some? ==> r.token == Zero && r.err == Some(ParseError)
    ensures |Strings.Split(s, '.')| != 3 ==> r.err.Some?
    ensures r.err == None ==> r.token.header == DefaultHeader
  {
    var parts := Strings.Split(s, '.');
    if |parts| != 3 then Parsed(Zero, Some(ParseError))
    else
      var body := Decode(parts[1]);
      var claim := Decode(parts[2]);
      if body.None? || claim.None? then Parsed(Zero, Some(ParseError))
      else
        match js.parseBody(body.value)
        case None => Parsed(Zero, Some(ParseError))
        case Some(parsedBody) => Parsed(Jwt(DefaultHeader, parsedBody, claim.value), None)
  }

  /** jwt_test.go: a new token survives `String` then `FromString` under the same key */
  lemma StringRoundTrip(js: Json, mac: Mac, sub: string, key: Bytes)
    requires BodyRoundTrips(js)
    ensures FromString(js, mac, String(js, mac, New(sub), key), key) == Parsed(New(sub), None)
  {
    var j := New(sub);
    DecodeEncode(js.body(j.body));
    DecodeEncode(Signature(js, mac, j, key));
  }

  /** A well-formed string whose MAC does not match fails with the verify
      error, not the parse error */
  lemma WrongMacIsVerifyError(js: Json, mac: Mac, h: Header, b: Body, sig: Bytes, key: Bytes)
    requires BodyRoundTrips(js)
    requires sig != Signature(js, mac, New(b.sub), key)
    ensures FromString(js, mac, Serialize(js, h, b, sig), key) == Parsed(Zero, Some(VerifyError))
  {
    DecodeEncode(js.body(b));
    DecodeEncode(sig);
  }

  /** The header segment is never looked at: any dot-free text in its place,
      valid base64url or not, gives the same result */
  lemma HeaderSegmentIgnored(js: Json, mac: Mac, h1: string, h2: string, rest: string, key: Bytes)
    requires '.' !in h1 && '.' !in h2
    ensures FromString(js, mac, h1 + "." + rest, key) == FromString(js, mac, h2 + "." + rest, key)
    ensures Parse(js, h1 + "." + rest) == Parse(js, h2 + "." + rest)
  {
    Strings.SplitThenSeparator(h1, rest, '.');
    Strings.SplitThenSeparator(h2, rest, '.');
  }

  /** Parsing the three-segment form gives back body and signature, under the default header */
  lemma ParseSerialize(js: Json, h: Header, b: Body, sig: Bytes)
    requires BodyRoundTrips(js)
    ensures Parse(js, Serialize(js, h, b, sig)) == Parsed(Jwt(DefaultHeader, b, sig), None)
  {
    DecodeEncode(js.body(b));
    DecodeEncode(sig);
  }
}

=== FILE: jwt_gate.dfy ===
/** The access-token check that the prekey and message services put in
    front of every route (`JwtMiddleware` in services/ecdh/api/api.go and
    services/message/api/api.go). The two differ only in the order of the
    expiry and `JwtIsValid` tests, which are side-effect free, so one
    definition serves both. `JwtIsValid` belongs to the audience and its
    source is not part of this model; it is a parameter. */
module JwtGate {
  import opened Wrappers
  import opened Base64Url
  import opened Jwt
  import opened Actors

  /** The token the wrapped handler receives, or None when the middleware
      answers 401 itself */
  function Admit(js: Json, isValid: Jwt -> bool, authorization: string, now: int): (r: Option<Jwt>)
    ensures r.Some? <==>
              && Parse(js, authorization).err.None?
              && isValid(Parse(js, authorization).token)
              && !Expired(Parse(js, authorization).token, now)
    ensures r.Some? ==> r.value == Parse(js, authorization).token && now < r.value.body.exp
  {
    var p := Parse(js, authorization);
    if p.err.Some? || !isValid(p.token) || Expired(p.token, now) then None
    else Some(p.token)
  }

  /** A token the issuer stringified passes the gate of an audience that
      accepts it, until its expiry, and the handler sees its subject */
  lemma IssuedTokenAdmitted(i: Issuer, sg: Signer, js: Json, isValid: Jwt -> bool, j: Jwt, salt: Bytes, now: int)
    requires BodyRoundTrips(js)
    requires isValid(Jwt(DefaultHeader, j.body, IssuerSignature(i, sg, js, j, salt)))
    ensures var r := Admit(js, isValid, Stringify(i, sg, js, j, salt), now);
            (r.Some? <==> now < j.body.exp) && (r.Some? ==> r.value.body == j.body)
  {
    StringifyParsesBack(i, sg, js, j, salt);
  }

  /** No token in the six-piece form the as-written `StringifyJwt` produces
      passes the gate, whatever the audience accepts and whatever the time */
  lemma AsWrittenTokenRefused(i: Issuer, sg: Signer, js: Json, isValid: Jwt -> bool, j: Jwt, salt: Bytes, now: int)
    ensures Admit(js, isValid, StringifyJwt(i, sg, js, j, salt), now) == None
  {
    StringifyJwtHasSixSegments(i, sg, js, j, salt);
  }
}

=== FILE: message_api.dfy ===
/** The routes of the message service (services/message/api/api.go):
    `/messages`, where an authenticated GET reads the caller's stored
    messages and an authenticated POST stores a batch of messages for their
    recipients, and `/ws`, where the connection is taken over and handed to
    the chat relay under the token's subject. */
module MessageApi {
  import opened Wrappers
  import opened Base64Url
  import opened Jwt
  import opened Http
  import opened Table
  import opened Framing
  import opened MessageDb
  import opened Relay
  import ChatSocket
  import JwtGate

  /** The service's fixed collaborators: the JSON codec and the audience's `JwtIsValid` */
  datatype Server = Server(js: Json, isValid: Jwt -> bool)

  /** The parts of a request `/messages` reads: the method, the
      `Authorization` header and the JSON body (None when it does not decode
      as a list of messages) */
  datatype Request = Request(verb: Method, authorization: string, body: Option<seq<Message>>)

  /** The status written, with the messages a successful GET writes as JSON */
  datatype Reply = Reply(status: int, messages: Option<seq<Message>>)

  datatype Outcome = Outcome(reply: Reply, db: Db)

  function Plain(status: int, db: Db): Outcome
  {
    Outcome(Reply(status, None), db)
  }

  /** GET: the caller's stored messages, or 500 when the query fails. The
      table is only read. `failsAt` is where scanning the result rows fails,
      if it does (see `GetMessages`). */
  method HandleGet(db: Db, sub: string, failsAt: Option<nat>) returns (r: Outcome)
    ensures r.db == db
    ensures r.reply.status == StatusOK <==> db.up
    ensures !db.up ==> r.reply == Reply(StatusInternalServerError, None)
    ensures db.up ==> r.reply.messages.Some?
    ensures db.up && failsAt.None? ==> r.reply.messages == Some(Inbox(db.rows, sub))
    ensures db.up ==> var all := Inbox(db.rows, sub);
                      var got := r.reply.messages.value;
                      |got| <= |all| && got == all[..|got|]
  {
    var messages, err := GetMessages(db, sub, failsAt);
    if err.Some? {
      return Plain(StatusInternalServerError, db);
    }
    PrefixOfInbox(db.rows, |db.rows|, sub);
    assert db.rows[..|db.rows|] == db.rows;
    return Outcome(Reply(StatusOK, Some(messages)), db);
  }

  /** POST: 400 for an undecodable or empty list; otherwise the messages are
      stored, and a failed insert answers 500, keeping the rows inserted
      before the failure. Any recipient may be named: the messages are
      addressed to others, not owned by the caller. */
  function HandlePost(db: Db, body: Option<seq<Message>>): (r: Outcome)
    ensures body.None? || body == Some([]) ==> r == Plain(StatusBadRequest, db)
    ensures r.reply.status == StatusOK <==>
              body.Some? && |body.value| >= 1 && PostMessages(db, body.value).1.None?
    ensures r.reply.status in {StatusOK, StatusBadRequest, StatusInternalServerError}
    ensures r.reply.messages.None?
    ensures r.reply.status != StatusOK ==> r.db == db || r.reply.status == StatusInternalServerError
    ensures r.reply.status == StatusInternalServerError ==>
              && body.Some? && r.db == PostMessages(db, body.value).0
              && r.db.rows == db.rows + body.value[..|r.db.rows| - |db.rows|]
              && |r.db.rows| < |db.rows| + |body.value|
    ensures r.reply.status == StatusOK ==>
              forall uid :: Inbox(r.db.rows, uid) == Inbox(db.rows, uid) + Inbox(body.value, uid)
    ensures Valid(db) ==> Valid(r.db)
  {
    match body
    case None => Plain(StatusBadRequest, db)
    case Some(msgs) =>
      if |msgs| < 1 then Plain(StatusBadRequest, db)
      else
        var (db', err) := PostMessages(db, msgs);
        InboxAfterPost(db, msgs);
        if err.Some? then Plain(StatusInternalServerError, db')
        else Plain(StatusOK, db')
  }

  lemma InboxAfterPost(db: Db, msgs: seq<Message>)
    ensures PostMessages(db, msgs).1.None? ==>
              forall uid :: Inbox(PostMessages(db, msgs).0.rows, uid) == Inbox(db.rows, uid) + Inbox(msgs, uid)
  {
    if PostMessages(db, msgs).1.None? {
      forall uid ensures Inbox(PostMessages(db, msgs).0.rows, uid) == Inbox(db.rows, uid) + Inbox(msgs, uid) {
        PostThenInbox(db, msgs, uid);
      }
    }
  }

  /** `handleMessage`: GET, POST, and 405 for every other method */
  method HandleMessage(db: Db, req: Request, token: Jwt, failsAt: Option<nat>) returns (r: Outcome)
    ensures req.verb == Post ==> r == HandlePost(db, req.body)
    ensures req.verb.OtherMethod? ==> r == Plain(StatusMethodNotAllowed, db)
    ensures req.verb == Get ==>
              && r.db == db
              && (r.reply.status == StatusOK <==> db.up)
              && (db.up && failsAt.None? ==> r.reply.messages == Some(Inbox(db.rows, token.body.sub)))
  {
    match req.verb
    case Get =>
      r := HandleGet(db, token.body.sub, failsAt);
    case Post =>
      r := HandlePost(db, req.body);
    case OtherMethod(_) =>
      r := Plain(StatusMethodNotAllowed, db);
  }

  /** `/messages` behind `JwtMiddleware` */
  method ServeMessages(s: Server, db: Db, req: Request, now: int, failsAt: Option<nat>) returns (r: Outcome)
    ensures JwtGate.Admit(s.js, s.isValid, req.authorization, now).None? ==> r == Plain(StatusUnauthorized, db)
    ensures r.reply.status == StatusUnauthorized ==> r.db == db
    ensures var admitted := JwtGate.Admit(s.js, s.isValid, req.authorization, now);
            admitted.Some? && req.verb == Get && db.up && failsAt.None? ==>
              r.reply == Reply(StatusOK, Some(Inbox(db.rows, admitted.value.body.sub)))
  {
    var admitted := JwtGate.Admit(s.js, s.isValid, req.authorization, now);
    match admitted
    case None =>
      r := Plain(StatusUnauthorized, db);
    case Some(token) =>
      r := HandleMessage(db, req, token, failsAt);
  }

  /** A batch that was stored cannot be stored again: its first message's
      ciphertext is already in the table, so the repeat answers 500 and
      inserts nothing */
  lemma RepostRejected(db: Db, msgs: seq<Message>)
    requires Valid(db)
    requires HandlePost(db, Some(msgs)).reply.status == StatusOK
    ensures var again := HandlePost(HandlePost(db, Some(msgs)).db, Some(msgs));
            again == Plain(StatusInternalServerError, HandlePost(db, Some(msgs)).db)
  {
    var db1 := HandlePost(db, Some(msgs)).db;
    var r := PostMessages(db1, msgs);
    assert db1.rows[|db.rows|] == msgs[0];
    assert Conflicts(db1.rows, msgs[0], Clash);
    ConflictBreaksUnique(db1.rows, msgs, Clash);
  }

  /** A message posted for a user is in what that user's next GET reads,
      after the messages stored for it before */
  lemma PostedMessageReadable(db: Db, msgs: seq<Message>, uid: string)
    requires HandlePost(db, Some(msgs)).reply.status == StatusOK
    ensures Inbox(HandlePost(db, Some(msgs)).db.rows, uid) == Inbox(db.rows, uid) + Inbox(msgs, uid)
    ensures forall i :: 0 <= i < |msgs| && msgs[i].toUid == uid ==>
              msgs[i] in Inbox(HandlePost(db, Some(msgs)).db.rows, uid)
  {
    var after := HandlePost(db, Some(msgs)).db.rows;
    forall i | 0 <= i < |msgs| && msgs[i].toUid == uid
      ensures msgs[i] in Inbox(after, uid)
    {
      InboxHolds(msgs, i, uid);
    }
  }

  /** Every row addressed to `uid` is in its inbox */
  lemma {:induction false} InboxHolds(rows: seq<Message>, i: nat, uid: string)
    requires i < |rows| && rows[i].toUid == uid
    ensures rows[i] in Inbox(rows, uid)
    decreases |rows|
  {
    if i < |rows| - 1 {
      InboxHolds(rows[..|rows| - 1], i, uid);
    }
  }

  /** The result of `/ws`: the status the middleware or the hijack failure
      wrote, or the relay session the connection ran */
  datatype Upgrade = Refused(status: int) | Connected(session: Session)

  /** `upgradeConnection`: take over the connection, 500 when that fails,
      and otherwise run the relay session for the token's subject over a
      new socket on it. `hijacked` is what `Hijack` returned: the
      connection's identity and the frames its peer sends, or None. */
  method UpgradeConnection(c: Codec<Message>, relay: Relay, db: Db, token: Jwt,
                           hijacked: Option<(nat, seq<Bytes>)>) returns (u: Upgrade)
    ensures hijacked.None? ==> u == Refused(StatusInternalServerError)
    ensures hijacked.Some? ==>
              && u.Connected?
              && u.session.forwarded == DecodedPrefix(c, hijacked.value.1)
              && u.session.relay.users.Keys == relay.users.Keys - {token.body.sub}
              && u.session.closed.Some? && u.session.closed.value.conn == hijacked.value.0
              && u.session.closed.value.outgoing == Encoded(c, Inbox(u.session.forwarded, token.body.sub))
  {
    match hijacked
    case None =>
      u := Refused(StatusInternalServerError);
    case Some((conn, incoming)) =>
      var s := ChatSocket.NewSocket(conn, incoming);
      var session := AddUserConnection(c, relay, db, token.body.sub, s);
      assert [] + Encoded(c, Inbox(session.forwarded, token.body.sub)) == Encoded(c, Inbox(session.forwarded, token.body.sub));
      u := Connected(session);
  }

  /** `/ws` behind `JwtMiddleware` */
  method ServeWs(s: Server, c: Codec<Message>, relay: Relay, db: Db, authorization: string, now: int,
                 hijacked: Option<(nat, seq<Bytes>)>) returns (u: Upgrade)
    ensures JwtGate.Admit(s.js, s.isValid, authorization, now).None? ==> u == Refused(StatusUnauthorized)
    ensures var admitted := JwtGate.Admit(s.js, s.isValid, authorization, now);
            admitted.Some? && hijacked.Some? ==>
              && u.Connected?
              && u.session.relay.users.Keys == relay.users.Keys - {admitted.value.body.sub}
              && u.session.closed.Some?
              && u.session.closed.value.outgoing == Encoded(c, Inbox(u.session.forwarded, admitted.value.body.sub))
  {
    var admitted := JwtGate.Admit(s.js, s.isValid, authorization, now);
    match admitted
    case None =>
      u := Refused(StatusUnauthorized);
    case Some(token) =>
      u := UpgradeConnection(c, relay, db, token, hijacked);
  }
}

=== FILE: message_db.dfy ===
/** The stored-message table of the message service
    (services/message/database/db.go): messages for recipients who were not
    connected when the message arrived. `private` is UNIQUE. Reading a
    recipient's messages does not remove them. */
module MessageDb {
  import opened Wrappers
  import opened Table

  datatype Message = Message(toUid: string, private: string, keyId: string)

  datatype Db = Db(rows: seq<Message>, up: bool)

  /** `private` is UNIQUE: two rows with the same ciphertext cannot both be stored */
  predicate Clash(a: Message, b: Message)
  {
    a.private == b.private
  }

  predicate Valid(db: Db)
  {
    Unique(db.rows, Clash)
  }

  /** The rows addressed to `uid`, in insertion order */
  function Inbox(rows: seq<Message>, uid: string): (ms: seq<Message>)
  {
    if |rows| == 0 then []
    else Inbox(rows[..|rows| - 1], uid) + (if rows[|rows| - 1].toUid == uid then [rows[|rows| - 1]] else [])
  }

  /** The inbox holds exactly the rows addressed to `uid`, and no more of them than there are rows */
  lemma {:induction false} InboxMembers(rows: seq<Message>, uid: string)
    ensures forall m :: m in Inbox(rows, uid) <==> m in rows && m.toUid == uid
    ensures |Inbox(rows, uid)| <= |rows|
    decreases |rows|
  {
    if |rows| > 0 {
      var init := rows[..|rows| - 1];
      InboxMembers(init, uid);
      assert rows == init + [rows[|rows| - 1]];
    }
  }

  /** One more row adds it to its recipient's inbox only */
  lemma InboxSnoc(rows: seq<Message>, m: Message, uid: string)
    ensures Inbox(rows + [m], uid) == Inbox(rows, uid) + (if m.toUid == uid then [m] else [])
  {
    assert (rows + [m])[..|rows + [m]| - 1] == rows;
  }

  lemma {:induction false} InboxAppend(a: seq<Message>, b: seq<Message>, uid: string)
    ensures Inbox(a + b, uid) == Inbox(a, uid) + Inbox(b, uid)
    decreases |b|
  {
    if |b| > 0 {
      var b' := b[..|b| - 1];
      assert (a + b)[..|a + b| - 1] == a + b';
      InboxAppend(a, b', uid);
    } else {
      assert a + b == a;
    }
  }

  /** `GetMessages`: scan the recipient's rows in order, stopping early, and
      still without an error, when fetching or scanning a row fails.
      `failsAt` is the position among the recipient's rows at which that
      happens, if it does; the database driver's failures are not modelled
      otherwise. The table is only read. */
  method GetMessages(db: Db, toUid: string, failsAt: Option<nat>) returns (messages: seq<Message>, err: Option<SqlError>)
    ensures !db.up ==> messages == [] && err == Some(BackendError)
    ensures db.up ==> err.None?
    ensures db.up && failsAt.None? ==> messages == Inbox(db.rows, toUid)
    ensures db.up && failsAt.Some? ==>
              var all := Inbox(db.rows, toUid);
              messages == all[..if failsAt.value < |all| then failsAt.value else |all|]
    ensures forall m :: m in messages ==> m in db.rows && m.toUid == toUid
  {
    messages := [];
    if !db.up {
      return messages, Some(BackendError);
    }
    var rows := db.rows;
    var j := 0;
    var stopped := false;
    while j < |rows| && !stopped
      invariant 0 <= j <= |rows|
      invariant messages == Inbox(rows[..j], toUid)
      invariant failsAt.Some? && !stopped ==> |messages| <= failsAt.value
      invariant stopped ==> failsAt == Some(|messages|)
      decreases |rows| - j, if stopped then 0 else 1
    {
      if rows[j].toUid == toUid && failsAt == Some(|messages|) {
        stopped := true;
      } else {
        if rows[j].toUid == toUid {
          // the reused `Message{ToUid: toUid}` with the scanned columns filled in
          var m := Message(toUid, rows[j].private, rows[j].keyId);
          messages := messages + [m];
        }
        assert rows[..j + 1][..j] == rows[..j];
        j := j + 1;
      }
    }
    assert !stopped ==> rows[..j] == rows;
    PrefixOfInbox(rows, j, toUid);
    InboxMembers(rows, toUid);
    assert forall m :: m in messages ==> m in Inbox(rows, toUid);
    return messages, None;
  }

  /** The recipient's rows among the first `j` are a prefix of all of them */
  lemma {:induction false} PrefixOfInbox(rows: seq<Message>, j: nat, uid: string)
    requires j <= |rows|
    ensures |Inbox(rows[..j], uid)| <= |Inbox(rows, uid)|
    ensures Inbox(rows[..j], uid) == Inbox(rows, uid)[..|Inbox(rows[..j], uid)|]
  {
    assert rows == rows[..j] + rows[j..];
    InboxAppend(rows[..j], rows[j..], uid);
  }

  /** `PostMessages`: one INSERT per message, run in turn; the first one
      repeating a stored `private` ends the batch with an error, and the rows
      inserted before it stay */
  function PostMessages(db: Db, msgs: seq<Message>): (r: (Db, Option<SqlError>))
    ensures !db.up ==> r == (db, Some(BackendError))
    ensures r.0.up == db.up
    ensures |db.rows| <= |r.0.rows| <= |db.rows| + |msgs|
    ensures r.0.rows == db.rows + msgs[..|r.0.rows| - |db.rows|]
    ensures r.1.None? ==> r.0.rows == db.rows + msgs
    ensures Valid(db) ==> Valid(r.0)
    ensures Valid(db) ==> (r.1.None? <==> db.up && Unique(db.rows + msgs, Clash))
  {
    if !db.up then (db, Some(BackendError))
    else
      var (rows, err) := InsertEach(db.rows, msgs, Clash);
      (db.(rows := rows), err)
  }

  /** After a successful post, each recipient's stored messages are the old
      ones followed by those just posted to it, in the order posted */
  lemma PostThenInbox(db: Db, msgs: seq<Message>, uid: string)
    requires PostMessages(db, msgs).1.None?
    ensures Inbox(PostMessages(db, msgs).0.rows, uid) == Inbox(db.rows, uid) + Inbox(msgs, uid)
  {
    InboxAppend(db.rows, msgs, uid);
  }

  /** A message whose `private` is already stored is refused, and the table keeps its rows */
  lemma RepostRefused(db: Db, m: Message)
    requires Valid(db) && db.up
    requires m in db.rows
    ensures PostMessages(db, [m]) == (db, Some(ConstraintViolation))
  {
    var i :| 0 <= i < |db.rows| && db.rows[i] == m;
    assert Conflicts(db.rows, m, Clash);
    assert [m][1..] == [];
  }
}

=== FILE: mux.dfy ===
/** The event multiplexer (socket/mux.go): a table from opcode to handler.
    Handlers are Go closures; here they are values of a type parameter, and
    running one is recorded as the pair of handler and event it was called
    with. */
module EventMux {
  import opened Socket

  datatype Mux<H> = Mux(handlers: map<uint8, H>)

  /** `NewMux`: no opcode has a handler */
  function NewMux<H>(): (m: Mux<H>)
    ensures forall op: uint8 :: op !in m.handlers
  {
    Mux(map[])
  }

  /** `On`: `f` now handles `event`, replacing any earlier handler for it;
      every other opcode keeps its handler */
  function On<H>(m: Mux<H>, event: uint8, f: H): (m': Mux<H>)
    ensures event in m'.handlers && m'.handlers[event] == f
    ensures forall op :: op != event ==> (op in m'.handlers <==> op in m.handlers)
    ensures forall op :: op != event && op in m.handlers ==> m'.handlers[op] == m.handlers[op]
  {
    Mux(m.handlers[event := f])
  }

  /** `HandleMessage`: the handler registered for the event's opcode is
      called once with the event; an opcode with no handler is ignored */
  function HandleMessage<H>(m: Mux<H>, msg: Event): (calls: seq<(H, Event)>)
    ensures msg.opCode in m.handlers ==> calls == [(m.handlers[msg.opCode], msg)]
    ensures msg.opCode !in m.handlers ==> calls == []
  {
    if msg.opCode in m.handlers then [(m.handlers[msg.opCode], msg)] else []
  }

  /** After `On(event, f)`, events with that opcode go to `f` alone and all
      other events are dispatched as before */
  lemma OnThenHandle<H>(m: Mux<H>, event: uint8, f: H, msg: Event)
    ensures HandleMessage(On(m, event, f), msg) ==
            if msg.opCode == event then [(f, msg)] else HandleMessage(m, msg)
  {
  }

  /** A fresh multiplexer ignores every event */
  lemma NewMuxIgnores<H>(msg: Event)
    ensures HandleMessage(NewMux<H>(), msg) == []
  {
  }

  /** Registering twice for one opcode keeps only the later handler */
  lemma LaterHandlerWins<H>(m: Mux<H>, event: uint8, f: H, g: H, msg: Event)
    requires msg.opCode == event
    ensures HandleMessage(On(On(m, event, f), event, g), msg) == [(g, msg)]
  {
  }
}

=== FILE: prekey_api.dfy ===
/** The `/prekeys` route of the key-exchange service
    (services/ecdh/api/api.go): an authenticated GET hands out, and uses up,
    one of the named user's one-time prekeys; an authenticated POST uploads
    a batch of the caller's own prekeys. */
module PrekeyApi {
  import opened Wrappers
  import opened Jwt
  import opened Http
  import opened Table
  import opened PrekeyDb
  import JwtGate

  /** The service's fixed collaborators: the JSON codec and the audience's `JwtIsValid` */
  datatype Server = Server(js: Json, isValid: Jwt -> bool)

  /** The parts of a request the route reads: the method, the `Authorization`
      header, the `fromUid` query parameter, and the JSON body (None when it
      does not decode as a list of prekeys) */
  datatype Request = Request(verb: Method, authorization: string, fromUid: string, body: Option<seq<PreKey>>)

  /** The status written, with the prekey a successful GET writes as JSON */
  datatype Reply = Reply(status: int, key: Option<PreKey>)

  datatype Outcome = Outcome(reply: Reply, db: Db)

  function Plain(status: int, db: Db): Outcome
  {
    Outcome(Reply(status, None), db)
  }

  /** GET: 400 without `fromUid`; otherwise one of that user's keys, used up
      by the fetch, or 500 when there is none left or the store fails */
  function HandleGet(db: Db, fromUid: string): (r: Outcome)
    ensures fromUid == "" ==> r == Plain(StatusBadRequest, db)
    ensures r.reply.status == StatusOK <==> fromUid != "" && db.up && KeysOf(db.rows, fromUid) != []
    ensures r.reply.status != StatusOK ==> r.db == db && r.reply.key.None?
    ensures r.reply.status == StatusOK ==>
              && r.reply.key.Some?
              && r.reply.key.value.fromUid == fromUid
              && r.reply.key.value in db.rows
              && r.reply.key.value !in r.db.rows
    ensures r.reply.status == StatusOK ==>
              r.reply.key.value == KeysOf(db.rows, fromUid)[0] && r.db.up
    ensures r.reply.status == StatusOK && Valid(db) ==>
              && KeysOf(r.db.rows, fromUid) == KeysOf(db.rows, fromUid)[1..]
              && forall other :: other != fromUid ==> KeysOf(r.db.rows, other) == KeysOf(db.rows, other)
    ensures r.reply.status in {StatusOK, StatusBadRequest, StatusInternalServerError}
  {
    if fromUid == "" then Plain(StatusBadRequest, db)
    else
      var f := GetPreKey(db, fromUid);
      if f.err.Some? then Plain(StatusInternalServerError, db)
      else Outcome(Reply(StatusOK, Some(f.key)), f.db)
  }

  /** POST as written: 400 for an undecodable or empty list, 401 when the
      first key names someone other than the token's subject, 500 when the
      insert fails (keeping the rows inserted before the failure) */
  function HandlePost(db: Db, body: Option<seq<PreKey>>, sub: string): (r: Outcome)
    ensures body.None? || body == Some([]) ==> r == Plain(StatusBadRequest, db)
    ensures r.reply.status == StatusOK <==>
              && body.Some? && |body.value| >= 1
              && body.value[0].fromUid == sub
              && PostPreKeys(db, body.value).1.None?
    ensures r.reply.status == StatusOK ==> r.db.rows == db.rows + body.value
    ensures r.reply.status != StatusInternalServerError ==> r.db == db || r.reply.status == StatusOK
    ensures r.reply.status == StatusInternalServerError ==>
              && body.Some? && r.db == PostPreKeys(db, body.value).0
              && r.db.rows == db.rows + body.value[..|r.db.rows| - |db.rows|]
              && |r.db.rows| < |db.rows| + |body.value|
    ensures r.reply.key.None?
  {
    match body
    case None => Plain(StatusBadRequest, db)
    case Some(keys) =>
      if |keys| < 1 then Plain(StatusBadRequest, db)
      else if keys[0].fromUid != sub then Plain(StatusUnauthorized, db)
      else
        var (db', err) := PostPreKeys(db, keys);
        if err.Some? then Plain(StatusInternalServerError, db')
        else Plain(StatusOK, db')
  }

  /** `handlePreKey` as written */
  function HandlePreKey(db: Db, req: Request, token: Jwt): (r: Outcome)
    ensures req.verb == Get ==> r == HandleGet(db, req.fromUid)
    ensures req.verb == Post ==> r == HandlePost(db, req.body, token.body.sub)
    ensures req.verb.OtherMethod? ==> r == Plain(StatusMethodNotAllowed, db)
  {
    match req.verb
    case Get => HandleGet(db, req.fromUid)
    case Post => HandlePost(db, req.body, token.body.sub)
    case OtherMethod(_) => Plain(StatusMethodNotAllowed, db)
  }

  /** Only the first key's owner is compared with the token's subject: a
      user can upload a key in another user's name, which that user's
      correspondents are then handed */
  lemma ForeignKeyAccepted(db: Db, token: Jwt, mine: PreKey, theirs: PreKey)
    requires db.up && Valid(db)
    requires mine.fromUid == token.body.sub && theirs.fromUid != token.body.sub
    requires Unique(db.rows + [mine, theirs], Clash)
    ensures var r := HandlePreKey(db, Request(Post, "", "", Some([mine, theirs])), token);
            && r.reply.status == StatusOK
            && KeysOf(r.db.rows, theirs.fromUid) == KeysOf(db.rows, theirs.fromUid) + [theirs]
  {
    PostThenKeys(db, [mine, theirs], theirs.fromUid);
    assert [mine, theirs][1..] == [theirs] && [theirs][1..] == [];
    assert KeysOf([mine, theirs], theirs.fromUid) == KeysOf([theirs], theirs.fromUid) == [theirs];
  }

  /** Every uploaded key belongs to `sub` */
  predicate AllOwnedBy(keys: seq<PreKey>, sub: string)
  {
    forall i :: 0 <= i < |keys| ==> keys[i].fromUid == sub
  }

  /** POST as evidently intended: every key, not only the first, must name
      the token's subject */
  function HandlePostChecked(db: Db, body: Option<seq<PreKey>>, sub: string): (r: Outcome)
    ensures body.None? || body == Some([]) ==> r == Plain(StatusBadRequest, db)
    ensures r.reply.status == StatusOK <==>
              && body.Some? && |body.value| >= 1
              && AllOwnedBy(body.value, sub)
              && PostPreKeys(db, body.value).1.None?
    ensures r.reply.status == StatusOK ==> r.db.rows == db.rows + body.value
    ensures r.reply.status == StatusInternalServerError ==>
              && body.Some? && r.db == PostPreKeys(db, body.value).0
              && r.db.rows == db.rows + body.value[..|r.db.rows| - |db.rows|]
    ensures forall other :: other != sub ==> KeysOf(r.db.rows, other) == KeysOf(db.rows, other)
    ensures r.reply.key.None?
  {
    match body
    case None => Plain(StatusBadRequest, db)
    case Some(keys) =>
      if |keys| < 1 then Plain(StatusBadRequest, db)
      else if !AllOwnedBy(keys, sub) then Plain(StatusUnauthorized, db)
      else
        var (db', err) := PostPreKeys(db, keys);
        OwnUploadLeavesOthers(db, keys, sub);
        if err.Some? then Plain(StatusInternalServerError, db')
        else Plain(StatusOK, db')
  }

  /** Whatever part of an upload of one's own keys gets stored, nobody
      else's keys change */
  lemma OwnUploadLeavesOthers(db: Db, keys: seq<PreKey>, sub: string)
    requires AllOwnedBy(keys, sub)
    ensures forall other :: other != sub ==> KeysOf(PostPreKeys(db, keys).0.rows, other) == KeysOf(db.rows, other)
  {
    var rows := PostPreKeys(db, keys).0.rows;
    var stored := keys[..|rows| - |db.rows|];
    forall other | other != sub ensures KeysOf(rows, other) == KeysOf(db.rows, other) {
      KeysOfAppend(db.rows, stored, other);
      assert AllOwnedBy(stored, sub);
      OwnedByNoOneElse(stored, sub, other);
      assert db.rows + stored == rows;
    }
  }

  /** `handlePreKey` with the corrected ownership check */
  function HandlePreKeyChecked(db: Db, req: Request, token: Jwt): (r: Outcome)
    ensures req.verb == Get ==> r == HandleGet(db, req.fromUid)
    ensures req.verb == Post ==> r == HandlePostChecked(db, req.body, token.body.sub)
    ensures req.verb.OtherMethod? ==> r == Plain(StatusMethodNotAllowed, db)
  {
    match req.verb
    case Get => HandleGet(db, req.fromUid)
    case Post => HandlePostChecked(db, req.body, token.body.sub)
    case OtherMethod(_) => Plain(StatusMethodNotAllowed, db)
  }

  /** `ConfigureRoutes` as written: `/prekeys` behind `JwtMiddleware`, with
      the handler that checks only the first key's owner */
  function Serve(s: Server, db: Db, req: Request, now: int): (r: Outcome)
    ensures JwtGate.Admit(s.js, s.isValid, req.authorization, now).None? ==> r == Plain(StatusUnauthorized, db)
    ensures var admitted := JwtGate.Admit(s.js, s.isValid, req.authorization, now);
            admitted.Some? ==> r == HandlePreKey(db, req, admitted.value)
    ensures var admitted := JwtGate.Admit(s.js, s.isValid, req.authorization, now);
            admitted.Some? && req.verb == Post ==>
              (r.reply.status == StatusOK <==>
                 && req.body.Some? && |req.body.value| >= 1
                 && req.body.value[0].fromUid == admitted.value.body.sub
                 && PostPreKeys(db, req.body.value).1.None?)
  {
    match JwtGate.Admit(s.js, s.isValid, req.authorization, now)
    case None => Plain(StatusUnauthorized, db)
    case Some(token) => HandlePreKey(db, req, token)
  }

  /** Through the whole as-written route, an admitted caller whose batch
      starts with its own key stores a key for someone else */
  lemma ServeAcceptsForeignKey(s: Server, db: Db, authorization: string, now: int, mine: PreKey, theirs: PreKey)
    requires db.up && Valid(db)
    requires var admitted := JwtGate.Admit(s.js, s.isValid, authorization, now);
             && admitted.Some?
             && mine.fromUid == admitted.value.body.sub
             && theirs.fromUid != admitted.value.body.sub
    requires Unique(db.rows + [mine, theirs], Clash)
    ensures var r := Serve(s, db, Request(Post, authorization, "", Some([mine, theirs])), now);
            && r.reply.status == StatusOK
            && KeysOf(r.db.rows, theirs.fromUid) == KeysOf(db.rows, theirs.fromUid) + [theirs]
  {
    ForeignKeyAccepted(db, JwtGate.Admit(s.js, s.isValid, authorization, now).value, mine, theirs);
  }

  /** `/prekeys` behind `JwtMiddleware` with the corrected handler */
  function ServeChecked(s: Server, db: Db, req: Request, now: int): (r: Outcome)
    ensures JwtGate.Admit(s.js, s.isValid, req.authorization, now).None? ==> r == Plain(StatusUnauthorized, db)
    ensures req.verb == Post ==>
              forall other :: other != Parse(s.js, req.authorization).token.body.sub ==>
                KeysOf(r.db.rows, other) == KeysOf(db.rows, other)
  {
    match JwtGate.Admit(s.js, s.isValid, req.authorization, now)
    case None => Plain(StatusUnauthorized, db)
    case Some(token) => HandlePreKeyChecked(db, req, token)
  }

  /** A user who uploads N fresh keys can then be fetched from N times by
      others, handing out exactly the uploaded keys in upload order, before
      the route answers 500 */
  lemma UploadThenDrain(db: Db, keys: seq<PreKey>, sub: string)
    requires Valid(db) && db.up && sub != "" && KeysOf(db.rows, sub) == []
    requires |keys| >= 1 && AllOwnedBy(keys, sub) && Unique(db.rows + keys, Clash)
    ensures var up := HandlePostChecked(db, Some(keys), sub);
            var drained := FetchMany(up.db, sub, |keys|);
            && up.reply.status == StatusOK
            && (forall i :: 0 <= i < |keys| ==> drained.0[i].key == keys[i])
            && HandleGet(drained.1, sub).reply.status == StatusInternalServerError
  {
    var up := HandlePostChecked(db, Some(keys), sub);
    UploadStoresAll(db, keys, sub);
    DrainOwner(up.db, sub);
  }

  /** The GET route hands out an owner's keys one by one, then answers 500 */
  lemma DrainOwner(db: Db, sub: string)
    requires Valid(db) && db.up && sub != ""
    ensures var drained := FetchMany(db, sub, |KeysOf(db.rows, sub)|);
            && (forall i :: 0 <= i < |drained.0| ==> drained.0[i].key == KeysOf(db.rows, sub)[i])
            && HandleGet(drained.1, sub) == Plain(StatusInternalServerError, drained.1)
  {
    FetchAllThenNone(db, sub);
  }

  lemma UploadStoresAll(db: Db, keys: seq<PreKey>, sub: string)
    requires Valid(db) && db.up && KeysOf(db.rows, sub) == []
    requires |keys| >= 1 && AllOwnedBy(keys, sub) && Unique(db.rows + keys, Clash)
    ensures var up := HandlePostChecked(db, Some(keys), sub);
            && up.reply.status == StatusOK && up.db.up && Valid(up.db)
            && KeysOf(up.db.rows, sub) == keys
  {
    PostThenKeys(db, keys, sub);
    AllOwnedKeysOf(keys, sub);
  }

  lemma {:induction false} OwnedByNoOneElse(keys: seq<PreKey>, sub: string, other: string)
    requires AllOwnedBy(keys, sub) && other != sub
    ensures KeysOf(keys, other) == []
  {
    if |keys| > 0 {
      OwnedByNoOneElse(keys[1..], sub, other);
    }
  }

  lemma {:induction false} AllOwnedKeysOf(keys: seq<PreKey>, sub: string)
    requires AllOwnedBy(keys, sub)
    ensures KeysOf(keys, sub) == keys
  {
    if |keys| > 0 {
      AllOwnedKeysOf(keys[1..], sub);
      assert keys == [keys[0]] + keys[1..];
    }
  }
}

=== FILE: prekey_db.dfy ===
/** The one-time prekey table (services/ecdh/database/db.go). Rows are kept
    in insertion order; the schema makes `key` UNIQUE and `keyId` the
    primary key, which is the table invariant `Valid`.

    A fetch selects one of the owner's rows and then deletes the row with
    that key. The query has no ORDER BY, so which row SQLite returns is not
    fixed by the code; the model takes the first in insertion order. The
    select and the delete are separate statements; they are modelled as one
    sequential step and nothing here speaks about concurrent callers. */
module PrekeyDb {
  import opened Wrappers
  import opened Table

  datatype PreKey = PreKey(fromUid: string, key: string, keyId: string)

  /** Go's zero value `PreKey{}`, returned beside a failed select */
  const ZeroPreKey: PreKey := PreKey("", "", "")

  datatype Db = Db(rows: seq<PreKey>, up: bool)

  /** `key` is UNIQUE and `keyId` the primary key: two rows sharing either
      cannot both be stored */
  predicate Clash(a: PreKey, b: PreKey)
  {
    a.key == b.key || a.keyId == b.keyId
  }

  predicate Valid(db: Db)
  {
    Unique(db.rows, Clash)
  }

  /** The owner's rows, in insertion order */
  function KeysOf(rows: seq<PreKey>, uid: string): (ks: seq<PreKey>)
  {
    if |rows| == 0 then []
    else (if rows[0].fromUid == uid then [rows[0]] else []) + KeysOf(rows[1..], uid)
  }

  /** The owner's keys are exactly the rows it owns */
  lemma {:induction false} KeysOfMembers(rows: seq<PreKey>, uid: string)
    ensures forall k :: k in KeysOf(rows, uid) <==> k in rows && k.fromUid == uid
    ensures |KeysOf(rows, uid)| <= |rows|
  {
    if |rows| > 0 {
      KeysOfMembers(rows[1..], uid);
      assert rows == [rows[0]] + rows[1..];
    }
  }

  /** `DELETE FROM preKeys WHERE key=?` */
  function DeleteKey(rows: seq<PreKey>, key: string): (rest: seq<PreKey>)
  {
    if |rows| == 0 then []
    else (if rows[0].key == key then [] else [rows[0]]) + DeleteKey(rows[1..], key)
  }

  /** Deleting a key leaves exactly the rows with a different key */
  lemma {:induction false} DeleteKeyMembers(rows: seq<PreKey>, key: string)
    ensures forall k :: k in DeleteKey(rows, key) <==> k in rows && k.key != key
  {
    if |rows| > 0 {
      DeleteKeyMembers(rows[1..], key);
      assert rows == [rows[0]] + rows[1..];
    }
  }

  /** The result of `GetPreKey`: the key, the error, and the table afterwards */
  datatype Fetch = Fetch(key: PreKey, err: Option<SqlError>, db: Db)

  /** `GetPreKey`: select one of the owner's rows, then delete it by key.
      With no row left the select fails and nothing is deleted. */
  function GetPreKey(db: Db, uid: string): (r: Fetch)
    ensures !db.up ==> r == Fetch(ZeroPreKey, Some(BackendError), db)
    ensures db.up && KeysOf(db.rows, uid) == [] ==> r == Fetch(ZeroPreKey, Some(NoRows), db)
    ensures r.err.None? <==> db.up && KeysOf(db.rows, uid) != []
    ensures r.err.None? ==> r.key in db.rows && r.key.fromUid == uid
    ensures r.err.None? ==> r.key == KeysOf(db.rows, uid)[0]
    ensures r.err.None? ==> r.key !in r.db.rows && r.db.up
    ensures r.err.None? && Valid(db) ==>
              && KeysOf(r.db.rows, uid) == KeysOf(db.rows, uid)[1..]
              && forall other :: other != uid ==> KeysOf(r.db.rows, other) == KeysOf(db.rows, other)
    ensures Valid(db) ==> Valid(r.db)
  {
    if !db.up then Fetch(ZeroPreKey, Some(BackendError), db)
    else
      var candidates := KeysOf(db.rows, uid);
      if candidates == [] then Fetch(ZeroPreKey, Some(NoRows), db)
      else
        var k := candidates[0];
        KeysOfMembers(db.rows, uid);
        DeleteKeyMembers(db.rows, k.key);
        DeleteSubsequence(db.rows, k.key);
        DeleteFirstOfOwner(db.rows, uid);
        Fetch(k, None, db.(rows := DeleteKey(db.rows, k.key)))
  }

  /** Deleting keeps the remaining rows in order, so it keeps them unique */
  lemma {:induction false} DeleteSubsequence(rows: seq<PreKey>, key: string)
    ensures Unique(rows, Clash) ==> Unique(DeleteKey(rows, key), Clash)
  {
    if |rows| > 0 && Unique(rows, Clash) {
      UniqueTail(rows, Clash);
      DeleteSubsequence(rows[1..], key);
      if rows[0].key != key {
        HeadClashesWithNone(rows, Clash);
        DeleteKeyMembers(rows[1..], key);
        ConsUnique(rows[0], DeleteKey(rows[1..], key), Clash);
      }
    }
  }

  /** A key that no row holds deletes nothing */
  lemma {:induction false} DeleteAbsent(rows: seq<PreKey>, key: string)
    requires forall k :: k in rows ==> k.key != key
    ensures DeleteKey(rows, key) == rows
  {
    if |rows| > 0 {
      DeleteAbsent(rows[1..], key);
      assert rows == [rows[0]] + rows[1..];
    }
  }

  /** Deleting the key of the owner's first row removes that row and no other */
  lemma {:induction false} DeleteFirstOfOwner(rows: seq<PreKey>, uid: string)
    requires KeysOf(rows, uid) != []
    ensures Unique(rows, Clash) ==>
              KeysOf(DeleteKey(rows, KeysOf(rows, uid)[0].key), uid) == KeysOf(rows, uid)[1..]
    ensures Unique(rows, Clash) ==> forall other :: other != uid ==>
              KeysOf(DeleteKey(rows, KeysOf(rows, uid)[0].key), other) == KeysOf(rows, other)
  {
    if Unique(rows, Clash) {
      var k := KeysOf(rows, uid)[0];
      UniqueTail(rows, Clash);
      HeadClashesWithNone(rows, Clash);
      if rows[0].fromUid == uid {
        assert k == rows[0];
        DeleteAbsent(rows[1..], k.key);
        assert DeleteKey(rows, k.key) == DeleteKey(rows[1..], k.key);
        assert KeysOf(rows, uid) == [rows[0]] + KeysOf(rows[1..], uid);
      } else {
        assert KeysOf(rows, uid) == KeysOf(rows[1..], uid);
        KeysOfMembers(rows[1..], uid);
        assert k in rows[1..];
        assert !Clash(rows[0], k);
        DeleteFirstOfOwner(rows[1..], uid);
        assert DeleteKey(rows, k.key) == [rows[0]] + DeleteKey(rows[1..], k.key);
        var rest := DeleteKey(rows[1..], k.key);
        assert ([rows[0]] + rest)[1..] == rest;
      }
    }
  }

  /** `PostPreKeys`: one INSERT per key, run in turn; the first one that
      breaks a constraint ends the batch with an error, and the rows inserted
      before it stay */
  function PostPreKeys(db: Db, keys: seq<PreKey>): (r: (Db, Option<SqlError>))
    ensures !db.up ==> r == (db, Some(BackendError))
    ensures r.0.up == db.up
    ensures |db.rows| <= |r.0.rows| <= |db.rows| + |keys|
    ensures r.0.rows == db.rows + keys[..|r.0.rows| - |db.rows|]
    ensures r.1.None? ==> r.0.rows == db.rows + keys
    ensures Valid(db) ==> Valid(r.0)
    ensures Valid(db) ==> (r.1.None? <==> db.up && Unique(db.rows + keys, Clash))
  {
    if !db.up then (db, Some(BackendError))
    else
      var (rows, err) := InsertEach(db.rows, keys, Clash);
      (db.(rows := rows), err)
  }

  lemma {:induction false} KeysOfAppend(a: seq<PreKey>, b: seq<PreKey>, uid: string)
    ensures KeysOf(a + b, uid) == KeysOf(a, uid) + KeysOf(b, uid)
  {
    if |a| > 0 {
      assert (a + b)[1..] == a[1..] + b;
      KeysOfAppend(a[1..], b, uid);
    } else {
      assert a + b == b;
    }
  }

  /** After a successful upload, an owner's keys are its old ones followed
      by the uploaded ones it owns, in upload order */
  lemma PostThenKeys(db: Db, keys: seq<PreKey>, uid: string)
    requires PostPreKeys(db, keys).1.None?
    ensures KeysOf(PostPreKeys(db, keys).0.rows, uid) == KeysOf(db.rows, uid) + KeysOf(keys, uid)
  {
    KeysOfAppend(db.rows, keys, uid);
  }

  /** `n` fetches in a row for one owner: the fetch results, and the table
      afterwards. While keys remain, each fetch hands out the owner's next key
      in insertion order and leaves every other owner's keys alone. */
  function FetchMany(db: Db, uid: string, n: nat): (r: (seq<Fetch>, Db))
    ensures |r.0| == n
    ensures Valid(db) && db.up && n <= |KeysOf(db.rows, uid)| ==>
              && (forall i :: 0 <= i < n ==> r.0[i].err.None? && r.0[i].key == KeysOf(db.rows, uid)[i])
              && Valid(r.1) && r.1.up
              && KeysOf(r.1.rows, uid) == KeysOf(db.rows, uid)[n..]
              && (forall other :: other != uid ==> KeysOf(r.1.rows, other) == KeysOf(db.rows, other))
    decreases n
  {
    if n == 0 then ([], db)
    else
      var f := GetPreKey(db, uid);
      var rest := FetchMany(f.db, uid, n - 1);
      ([f] + rest.0, rest.1)
  }

  /** An owner holding N keys can be fetched from N times, receiving each of
      its keys exactly once, in insertion order; afterwards the owner has no
      key left, the next fetch fails with no rows, and the other owners' keys
      are untouched */
  lemma FetchAllThenNone(db: Db, uid: string)
    requires Valid(db) && db.up
    ensures var r := FetchMany(db, uid, |KeysOf(db.rows, uid)|);
            && (forall i :: 0 <= i < |r.0| ==> r.0[i].err.None? && r.0[i].key == KeysOf(db.rows, uid)[i])
            && KeysOf(r.1.rows, uid) == []
            && GetPreKey(r.1, uid) == Fetch(ZeroPreKey, Some(NoRows), r.1)
            && (forall other :: other != uid ==> KeysOf(r.1.rows, other) == KeysOf(db.rows, other))
  {
  }

  /** The keys handed out to successive fetchers are pairwise distinct */
  lemma FetchedKeysDistinct(db: Db, uid: string)
    requires Valid(db) && db.up
    ensures var r := FetchMany(db, uid, |KeysOf(db.rows, uid)|);
            forall i, j :: 0 <= i < j < |r.0| ==> r.0[i].key.key != r.0[j].key.key
  {
    FetchAllThenNone(db, uid);
    KeysOfUnique(db.rows, uid);
  }

  lemma {:induction false} KeysOfUnique(rows: seq<PreKey>, uid: string)
    requires Unique(rows, Clash)
    ensures Unique(KeysOf(rows, uid), Clash)
  {
    if |rows| > 0 {
      UniqueTail(rows, Clash);
      KeysOfUnique(rows[1..], uid);
      if rows[0].fromUid == uid {
        HeadClashesWithNone(rows, Clash);
        KeysOfMembers(rows[1..], uid);
        ConsUnique(rows[0], KeysOf(rows[1..], uid), Clash);
      }
    }
  }
}

=== FILE: relay.dfy ===
/** The chat relay of the message service (services/message/chat/relay.go):
    a registry from uid to the socket that uid connected with last, and the
    routing loop that writes each incoming message to its recipient's socket
    when the recipient is connected and stores it otherwise.

    The Go relay runs one goroutine per connection plus the routing loop,
    all sharing the registry without a lock. Here one session is run as one
    sequential step: its messages are read, then routed in order; how
    sessions interleave is described only through the registry operations. */
module Relay {
  import opened Wrappers
  import opened Framing
  import opened Table
  import opened MessageDb
  import ChatSocket

  datatype Relay = Relay(users: map<string, Endpoint>)

  /** What happened to one routed message */
  datatype Delivery = Live(msg: Message) | Stored(msg: Message) | Lost(msg: Message)

  /** `NewRelay`: nobody is connected */
  function NewRelay(): (r: Relay)
    ensures forall uid :: uid !in r.users
  {
    Relay(map[])
  }

  /** The registration step of `AddUserConnection`: `uid` now maps to `s`,
      replacing any earlier socket, which stays open */
  function Register(r: Relay, uid: string, s: Endpoint): (r': Relay)
    ensures uid in r'.users && r'.users[uid] == s
    ensures forall v :: v != uid ==> (v in r'.users <==> v in r.users)
    ensures forall v :: v != uid && v in r.users ==> r'.users[v] == r.users[v]
  {
    Relay(r.users[uid := s])
  }

  /** One round of `recvLoop`: a connected recipient gets the message written
      to its socket (the write's error is discarded); otherwise it is stored,
      and a failure to store it is only logged, losing it */
  function Route(c: Codec<Message>, r: Relay, db: Db, msg: Message): (out: (Relay, Db, Delivery))
    ensures out.2.msg == msg
    ensures out.0.users.Keys == r.users.Keys
    ensures forall v :: v in r.users && v != msg.toUid ==> out.0.users[v] == r.users[v]
    ensures msg.toUid in r.users ==>
              && out.2 == Live(msg) && out.1 == db
              && out.0.users[msg.toUid] == ChatSocket.WriteMessage(c, r.users[msg.toUid], msg).0
    ensures msg.toUid !in r.users ==>
              && out.0 == r
              && (out.2 == Stored(msg) <==> PostMessages(db, [msg]).1.None?)
              && (out.2.Stored? ==> out.1.rows == db.rows + [msg])
              && (out.2.Lost? ==> out.1 == db)
  {
    if msg.toUid in r.users then
      var (s', _) := ChatSocket.WriteMessage(c, r.users[msg.toUid], msg);
      (Relay(r.users[msg.toUid := s']), db, Live(msg))
    else
      var (db', err) := PostMessages(db, [msg]);
      if err.Some? then
        assert [msg][..0] == [];
        (r, db, Lost(msg))
      else (r, db', Stored(msg))
  }

  /** `recvLoop` over a sequence of messages, in order */
  function RouteAll(c: Codec<Message>, r: Relay, db: Db, msgs: seq<Message>): (out: (Relay, Db, seq<Delivery>))
    ensures |out.2| == |msgs|
    ensures forall i :: 0 <= i < |msgs| ==> out.2[i].msg == msgs[i] && (out.2[i].Live? <==> msgs[i].toUid in r.users)
    ensures out.0.users.Keys == r.users.Keys
    decreases |msgs|
  {
    if |msgs| == 0 then (r, db, [])
    else
      var front := RouteAll(c, r, db, msgs[..|msgs| - 1]);
      var last := Route(c, front.0, front.1, msgs[|msgs| - 1]);
      (last.0, last.1, front.2 + [last.2])
  }

  /** A user connected throughout receives, on its socket, exactly the
      messages addressed to it, in the order they arrived */
  lemma {:induction false} ConnectedRecipientReceivesAll(c: Codec<Message>, r: Relay, db: Db, msgs: seq<Message>, v: string)
    requires v in r.users && r.users[v].open
    ensures var out := RouteAll(c, r, db, msgs).0;
            v in out.users && out.users[v] == r.users[v].(outgoing := r.users[v].outgoing + Encoded(c, Inbox(msgs, v)))
    decreases |msgs|
  {
    if |msgs| == 0 {
      assert Encoded(c, Inbox(msgs, v)) == [];
      assert r.users[v].outgoing + [] == r.users[v].outgoing;
    } else {
      var init := msgs[..|msgs| - 1];
      var m := msgs[|msgs| - 1];
      ConnectedRecipientReceivesAll(c, r, db, init, v);
      var front := RouteAll(c, r, db, init);
      assert msgs == init + [m];
      OnlineStep(c, r.users[v], front.0, front.1, init, m, v);
    }
  }

  /** When nothing is lost, a user offline throughout finds every message
      addressed to it stored after its earlier ones, in the order they arrived */
  lemma {:induction false} OfflineRecipientStored(c: Codec<Message>, r: Relay, db: Db, msgs: seq<Message>, v: string)
    requires v !in r.users
    requires forall i :: 0 <= i < |msgs| ==> !RouteAll(c, r, db, msgs).2[i].Lost?
    ensures Inbox(RouteAll(c, r, db, msgs).1.rows, v) == Inbox(db.rows, v) + Inbox(msgs, v)
    decreases |msgs|
  {
    if |msgs| == 0 {
      assert Inbox(db.rows, v) + [] == Inbox(db.rows, v);
    } else {
      var init := msgs[..|msgs| - 1];
      var m := msgs[|msgs| - 1];
      var front := RouteAll(c, r, db, init);
      var last := Route(c, front.0, front.1, m);
      NothingLostBefore(c, r, db, msgs);
      OfflineRecipientStored(c, r, db, init, v);
      assert msgs == init + [m];
      assert last.1.rows == front.1.rows + (if m.toUid in r.users then [] else [m]);
      InboxGrows(front.1.rows, last.1.rows, Inbox(db.rows, v), init, m, v, m.toUid !in r.users);
    }
  }

  /** When routing a batch loses nothing, routing all but its last message
      loses nothing, nor does routing the last one after them */
  lemma NothingLostBefore(c: Codec<Message>, r: Relay, db: Db, msgs: seq<Message>)
    requires |msgs| > 0
    requires forall i :: 0 <= i < |msgs| ==> !RouteAll(c, r, db, msgs).2[i].Lost?
    ensures var front := RouteAll(c, r, db, msgs[..|msgs| - 1]);
            && (forall i :: 0 <= i < |msgs| - 1 ==> !front.2[i].Lost?)
            && !Route(c, front.0, front.1, msgs[|msgs| - 1]).2.Lost?
  {
    var front := RouteAll(c, r, db, msgs[..|msgs| - 1]);
    var all := RouteAll(c, r, db, msgs);
    assert all.2 == front.2 + [Route(c, front.0, front.1, msgs[|msgs| - 1]).2];
    forall i | 0 <= i < |msgs| - 1 ensures !front.2[i].Lost? {
      assert all.2[i] == front.2[i];
    }
    assert !all.2[|msgs| - 1].Lost?;
  }

  /** `OfflineRecipientStored` for every user offline throughout */
  lemma EveryOfflineRecipientStored(c: Codec<Message>, r: Relay, db: Db, msgs: seq<Message>)
    ensures var out := RouteAll(c, r, db, msgs);
            (forall i :: 0 <= i < |msgs| ==> !out.2[i].Lost?) ==>
              forall v :: v !in r.users ==> Inbox(out.1.rows, v) == Inbox(db.rows, v) + Inbox(msgs, v)
  {
    var out := RouteAll(c, r, db, msgs);
    if forall i :: 0 <= i < |msgs| ==> !out.2[i].Lost? {
      forall v | v !in r.users
        ensures Inbox(out.1.rows, v) == Inbox(db.rows, v) + Inbox(msgs, v)
      {
        OfflineRecipientStored(c, r, db, msgs, v);
      }
    }
  }

  /** One routing round extends a connected user's socket by the message
      when it is addressed to that user, and leaves it alone otherwise */
  lemma OnlineStep(c: Codec<Message>, start: Endpoint, r: Relay, db: Db, init: seq<Message>, m: Message, v: string)
    requires start.open && v in r.users
    requires r.users[v] == start.(outgoing := start.outgoing + Encoded(c, Inbox(init, v)))
    ensures Route(c, r, db, m).0.users[v] == start.(outgoing := start.outgoing + Encoded(c, Inbox(init + [m], v)))
  {
    var out := Route(c, r, db, m).0;
    InboxSnoc(init, m, v);
    if v == m.toUid {
      EncodedSnoc(c, Inbox(init, v), m);
      assert out.users[v] == r.users[v].(outgoing := r.users[v].outgoing + [c.encode(m)]);
      assert start.outgoing + Encoded(c, Inbox(init, v)) + [c.encode(m)] == start.outgoing + Encoded(c, Inbox(init + [m], v));
    } else {
      assert Inbox(init + [m], v) == Inbox(init, v) + [];
    }
  }

  /** A round that stores `m` or passes it to a connected user other than
      `v` extends `v`'s stored messages exactly as it extends `v`'s share of
      the routed messages */
  lemma InboxGrows(rows: seq<Message>, rows': seq<Message>, before: seq<Message>, init: seq<Message>,
                   m: Message, v: string, stored: bool)
    requires Inbox(rows, v) == before + Inbox(init, v)
    requires rows' == rows + (if stored then [m] else [])
    requires !stored ==> m.toUid != v
    ensures Inbox(rows', v) == before + Inbox(init + [m], v)
  {
    InboxSnoc(init, m, v);
    if stored {
      InboxSnoc(rows, m, v);
    } else {
      assert rows' == rows;
    }
  }

  /** `disconnect` as written: whatever socket is registered for `uid` is
      removed and closed, whichever session registered it */
  function Disconnect(r: Relay, uid: string): (out: (Relay, Option<Endpoint>))
    ensures uid !in r.users ==> out == (r, None)
    ensures uid in r.users ==> out.1 == Some(Close(r.users[uid]))
    ensures out.0.users == r.users - {uid}
  {
    if uid !in r.users then (r, None)
    else (Relay(r.users - {uid}), Some(Close(r.users[uid])))
  }

  /** When one uid connects twice, the first connection's end unregisters the
      second and closes its socket: the second session's reads then fail
      and its own `disconnect` finds nothing to do */
  lemma StaleHangupClosesNewer(c: Codec<Message>, r: Relay, uid: string, first: Endpoint, second: Endpoint)
    ensures var r1 := Register(Register(r, uid, first), uid, second);
            var (r2, closed) := Disconnect(r1, uid);
            && closed == Some(Close(second))
            && uid !in r2.users
            && ChatSocket.ReadMessage(c, closed.value).1 == Some(Closed)
            && Disconnect(r2, uid) == (r2, None)
  {
  }

  /** `disconnect` as evidently intended: remove and close the registration
      only when it is the ending session's own connection */
  function DisconnectOwn(r: Relay, uid: string, conn: nat): (out: (Relay, Option<Endpoint>))
    ensures uid in r.users && r.users[uid].conn == conn ==>
              out == (Relay(r.users - {uid}), Some(Close(r.users[uid])))
    ensures !(uid in r.users && r.users[uid].conn == conn) ==> out == (r, None)
  {
    if uid in r.users && r.users[uid].conn == conn then (Relay(r.users - {uid}), Some(Close(r.users[uid])))
    else (r, None)
  }

  /** With the corrected `disconnect`, a stale session ending leaves the
      newer connection registered and open */
  lemma NewerConnectionSurvives(r: Relay, uid: string, first: Endpoint, second: Endpoint)
    requires first.conn != second.conn
    ensures var r1 := Register(Register(r, uid, first), uid, second);
            DisconnectOwn(r1, uid, first.conn) == (r1, None)
  {
  }

  /** The result of one connection's session */
  datatype Session = Session(relay: Relay, db: Db, forwarded: seq<Message>, deliveries: seq<Delivery>,
                             closed: Option<Endpoint>)

  /** `AddUserConnection`, run to the end of the connection with nobody else
      connecting meanwhile: register the socket, read and route messages
      until the first read error, then disconnect (with the corrected
      `disconnect`) */
  method AddUserConnection(c: Codec<Message>, r: Relay, db: Db, uid: string, s: Endpoint) returns (out: Session)
    requires s.open
    ensures out.forwarded == DecodedPrefix(c, s.incoming)
    ensures |out.deliveries| == |out.forwarded|
    ensures forall i :: 0 <= i < |out.forwarded| ==>
              out.deliveries[i].msg == out.forwarded[i]
              && (out.deliveries[i].Live? <==> out.forwarded[i].toUid == uid || out.forwarded[i].toUid in r.users)
    ensures out.relay.users.Keys == r.users.Keys - {uid}
    ensures out.closed.Some? && out.closed.value.conn == s.conn && !out.closed.value.open
    ensures out.closed.value.outgoing == s.outgoing + Encoded(c, Inbox(out.forwarded, uid))
    ensures (forall i :: 0 <= i < |out.deliveries| ==> !out.deliveries[i].Lost?) ==>
              forall v :: v != uid && v !in r.users ==>
                Inbox(out.db.rows, v) == Inbox(db.rows, v) + Inbox(out.forwarded, v)
  {
    var r1 := Register(r, uid, s);
    var forwarded, _ := ChatSocket.ChannelMessages(c, s);
    var routed := RouteAll(c, r1, db, forwarded);
    ConnectedRecipientReceivesAll(c, r1, db, forwarded, uid);
    EveryOfflineRecipientStored(c, r1, db, forwarded);
    var (r2, closed) := DisconnectOwn(routed.0, uid, s.conn);
    out := Session(r2, routed.1, forwarded, routed.2, closed);
  }
}

=== FILE: socket.dfy ===
/** The event socket (socket/socket.go): events are an opcode and a
    free-form JSON object, sent one per value over the connection. */
module Socket {
  import opened Wrappers
  import opened Base64Url
  import opened Framing

  type uint8 = x: int | 0 <= x < 256

  /** A JSON value as `any` holds it after decoding; a number is Go's
      float64, taken here as the exact real it denotes */
  datatype Value = Str(s: string) | Number(n: real) | Boolean(b: bool) | Null | Compound(text: string)

  /** `Data`: a JSON object, or Go's nil map. Nil is the zero value, and
      what a frame without `d`, or with `"d": null`, decodes to. */
  datatype Data = Nil | Entries(m: map<string, Value>)

  /** `GetStr`: the string stored under `key`, or "" when the key is absent,
      holds something other than a string, or the map is nil */
  function GetStr(d: Data, key: string): (s: string)
    ensures d.Entries? && key in d.m && d.m[key].Str? ==> s == d.m[key].s
    ensures !(d.Entries? && key in d.m && d.m[key].Str?) ==> s == ""
  {
    if d.Entries? && key in d.m && d.m[key].Str? then d.m[key].s else ""
  }

  /** `Set`: `key` now holds `val` and every other key keeps its value. On a
      nil map the assignment panics, which is None here. */
  function Set(d: Data, key: string, val: Value): (r: Option<Data>)
    ensures r.None? <==> d.Nil?
    ensures r.Some? ==>
              && r.value.Entries?
              && r.value.m.Keys == d.m.Keys + {key}
              && r.value.m[key] == val
              && forall k :: k in d.m && k != key ==> r.value.m[k] == d.m[k]
  {
    match d
    case Nil => None
    case Entries(m) => Some(Entries(m[key := val]))
  }

  /** On a non-nil map, a string set is read back by `GetStr` and other keys
      read as before; on a nil map, `Set` panics */
  lemma SetThenGetStr(d: Data, key: string, s: string, other: string)
    requires other != key
    ensures Set(d, key, Str(s)).Some? <==> d.Entries?
    ensures d.Entries? ==>
              && GetStr(Set(d, key, Str(s)).value, key) == s
              && GetStr(Set(d, key, Str(s)).value, other) == GetStr(d, other)
  {
  }

  /** `Event`: the opcode (JSON key `e`) and the data (JSON key `d`) */
  datatype Event = Event(opCode: uint8, data: Data)

  /** Go's zero value `Event{}`: opcode 0 and a nil map */
  const ZeroEvent: Event := Event(0, Nil)

  /** The zero event's data reads as empty, and setting a key on it panics */
  lemma ZeroEventDataIsNil(key: string, val: Value)
    ensures GetStr(ZeroEvent.data, key) == ""
    ensures Set(ZeroEvent.data, key, val) == None
  {
  }

  /** `ReadEvent` as written: the decoder's error is dropped and the named
      result `err` is never assigned, so the error is always nil; a failed
      read yields the zero event */
  function ReadEvent(c: Codec<Event>, s: Endpoint): (r: (Event, Option<StreamError>, Endpoint))
    ensures r.1 == None
    ensures var read := Receive(c, ZeroEvent, s); r.0 == read.0 && r.2 == read.2
    ensures Receive(c, ZeroEvent, s).1.Some? ==> r.0 == ZeroEvent
  {
    var (e, _, s') := Receive(c, ZeroEvent, s);
    (e, None, s')
  }

  /** `WriteEvent`: one more frame, unless the socket is closed */
  function WriteEvent(c: Codec<Event>, s: Endpoint, e: Event): (r: (Endpoint, Option<StreamError>))
    ensures r.1.None? <==> s.open
    ensures s.open ==> r.0.outgoing == s.outgoing + [c.encode(e)]
  {
    Send(c, s, e)
  }

  /** `Listen` as written, cut off after `steps` rounds: the events handed to
      the channel. Its `err != nil` exit never fires, so the loop never ends. */
  function ListenAsWritten(c: Codec<Event>, s: Endpoint, steps: nat): (events: seq<Event>)
    ensures |events| == steps
    decreases steps
  {
    if steps == 0 then []
    else
      var (e, err, s') := ReadEvent(c, s);
      if err.Some? then [] else [e] + ListenAsWritten(c, s', steps - 1)
  }

  /** The zero event, `n` times */
  function Zeros(n: nat): (zs: seq<Event>)
    ensures |zs| == n && forall i :: 0 <= i < n ==> zs[i] == ZeroEvent
  {
    seq(n, _ => ZeroEvent)
  }

  /** Once the peer has sent its events and hung up, `Listen` as written
      hands on those events and then the zero event at every further round,
      however many rounds are run */
  lemma {:induction false} ListenNeverStops(c: Codec<Event>, s: Endpoint, es: seq<Event>, n: nat)
    requires RoundTrips(c)
    requires s.open && s.incoming == Encoded(c, es)
    ensures ListenAsWritten(c, s, |es| + n) == es + Zeros(n)
    decreases |es| + n
  {
    var k := |es| + n;
    if k > 0 {
      var r := ReadEvent(c, s);
      var s' := r.2;
      assert ListenAsWritten(c, s, k) == [r.0] + ListenAsWritten(c, s', k - 1);
      if |es| > 0 {
        assert c.decode(c.encode(es[0])) == Some(es[0]);
        assert r.0 == es[0];
        EncodedTail(c, es);
        ListenNeverStops(c, s', es[1..], n);
        assert es == [es[0]] + es[1..];
      } else {
        assert s' == s && r.0 == ZeroEvent;
        ListenNeverStops(c, s', es, n - 1);
        assert Zeros(n) == [ZeroEvent] + Zeros(n - 1);
      }
    }
  }

  /** `ReadEvent` as evidently intended: the decoder's error is returned */
  function ReadEventChecked(c: Codec<Event>, s: Endpoint): (r: (Event, Option<StreamError>, Endpoint))
    ensures r.1.None? <==> s.open && |s.incoming| > 0 && c.decode(s.incoming[0]).Some?
    ensures r.1.None? ==> c.decode(s.incoming[0]) == Some(r.0)
  {
    Receive(c, ZeroEvent, s)
  }

  /** `Listen` over the corrected read: hand on events until the first read
      error, then return */
  method ListenChecked(c: Codec<Event>, s: Endpoint) returns (events: seq<Event>, s': Endpoint)
    ensures !s.open ==> events == []
    ensures s.open ==> events == DecodedPrefix(c, s.incoming)
    ensures |events| <= |s.incoming|
  {
    events, s' := ReceiveUntilError(c, ZeroEvent, s);
  }

  /** With the corrected read, the events the peer sent before hanging up
      are handed on, exactly and in order, and then `Listen` returns */
  lemma ListenCheckedHearsPeer(c: Codec<Event>, es: seq<Event>)
    requires RoundTrips(c)
    ensures DecodedPrefix(c, Encoded(c, es)) == es
  {
    WrittenValuesReadBack(c, es, []);
    assert Encoded(c, es) + [] == Encoded(c, es);
  }
}

=== FILE: strings.dfy ===
/** Go's `strings.Split` and `strings.Join` for a one-character separator,
    the only shape the token code uses (`"."`). */
module Strings {

  /** `strings.Join`: the parts with one separator between neighbours */
  function Join(parts: seq<string>, sep: char): string
  {
    if |parts| == 0 then ""
    else if |parts| == 1 then parts[0]
    else parts[0] + [sep] + Join(parts[1..], sep)
  }

  /** `strings.Split`: the maximal separator-free pieces between separators,
      so an empty input gives one empty piece */
  function Split(s: string, sep: char): (parts: seq<string>)
    ensures |parts| >= 1
    ensures Join(parts, sep) == s
    ensures forall i :: 0 <= i < |parts| ==> sep !in parts[i]
    decreases |s|
  {
    if |s| == 0 then [""]
    else
      var rest := Split(s[1..], sep);
      if s[0] == sep then
        assert ([""] + rest)[1..] == rest;
        [""] + rest
      else
        var parts := [[s[0]] + rest[0]] + rest[1..];
        assert parts[1..] == rest[1..];
        assert s == [s[0]] + s[1..];
        parts
  }

  /** Splitting the join of separator-free parts gives the parts back */
  lemma {:induction false} SplitJoin(parts: seq<string>, sep: char)
    requires |parts| >= 1
    requires forall i :: 0 <= i < |parts| ==> sep !in parts[i]
    ensures Split(Join(parts, sep), sep) == parts
    decreases |parts|
  {
    if |parts| == 1 {
      SplitPiece(parts[0], sep);
    } else {
      SplitJoin(parts[1..], sep);
      SplitThenSeparator(parts[0], Join(parts[1..], sep), sep);
      assert parts == [parts[0]] + parts[1..];
    }
  }

  /** A separator-free text is one piece */
  lemma {:induction false} SplitPiece(p: string, sep: char)
    requires sep !in p
    ensures Split(p, sep) == [p]
    decreases |p|
  {
    if |p| > 0 {
      assert sep !in p[1..];
      SplitPiece(p[1..], sep);
      assert p == [p[0]] + p[1..];
    }
  }

  /** A separator-free piece followed by the separator splits off as the first part */
  lemma {:induction false} SplitThenSeparator(p: string, r: string, sep: char)
    requires sep !in p
    ensures Split(p + [sep] + r, sep) == [p] + Split(r, sep)
    decreases |p|
  {
    var s := p + [sep] + r;
    if |p| == 0 {
      assert s == [sep] + r;
      assert s[1..] == r;
    } else {
      assert s[1..] == p[1..] + [sep] + r;
      assert sep !in p[1..];
      SplitThenSeparator(p[1..], r, sep);
      assert p == [p[0]] + p[1..];
    }
  }
}

=== FILE: table.dfy ===
/** What the two SQLite tables of the message-side services have in common:
    rows kept in insertion order, a uniqueness constraint given as the
    relation `clash` between two rows that may not both be stored, and the
    way both stores insert a batch — one INSERT statement per row, sent as a
    single multi-statement text and run in turn. SQLite stops at the first
    statement that fails; the rows inserted before it stay, since no
    transaction wraps the batch. */
module Table {
  import opened Wrappers

  datatype SqlError = NoRows | ConstraintViolation | BackendError

  /** No earlier row clashes with a later one */
  predicate Unique<R>(rows: seq<R>, clash: (R, R) -> bool)
  {
    forall i, j :: 0 <= i < j < |rows| ==> !clash(rows[i], rows[j])
  }

  /** Whether appending `r` after `rows` breaks the constraint */
  predicate Conflicts<R>(rows: seq<R>, r: R, clash: (R, R) -> bool)
  {
    exists i :: 0 <= i < |rows| && clash(rows[i], r)
  }

  /** The multi-statement INSERT: each item is appended unless it clashes
      with a row already stored, in which case the batch stops there with a
      constraint violation */
  function InsertEach<R>(rows: seq<R>, items: seq<R>, clash: (R, R) -> bool): (r: (seq<R>, Option<SqlError>))
    ensures |rows| <= |r.0| <= |rows| + |items|
    ensures r.0 == rows + items[..|r.0| - |rows|]
    ensures r.1.None? ==> r.0 == rows + items
    ensures r.1.Some? ==> r.1 == Some(ConstraintViolation) && |r.0| < |rows| + |items|
    ensures Unique(rows, clash) ==> Unique(r.0, clash)
    ensures Unique(rows, clash) ==> (r.1.None? <==> Unique(rows + items, clash))
    decreases |items|
  {
    if |items| == 0 then
      assert rows + items == rows;
      (rows, None)
    else if Conflicts(rows, items[0], clash) then
      ConflictBreaksUnique(rows, items, clash);
      (rows, Some(ConstraintViolation))
    else
      AppendKeepsUnique(rows, items[0], clash);
      var r := InsertEach(rows + [items[0]], items[1..], clash);
      assert (rows + [items[0]]) + items[1..] == rows + items;
      assert items[..1] + items[1..][..|r.0| - |rows| - 1] == items[..|r.0| - |rows|];
      r
  }

  lemma AppendKeepsUnique<R>(rows: seq<R>, x: R, clash: (R, R) -> bool)
    requires !Conflicts(rows, x, clash)
    ensures Unique(rows, clash) ==> Unique(rows + [x], clash)
  {
    if Unique(rows, clash) {
      var s := rows + [x];
      forall i, j | 0 <= i < j < |s| ensures !clash(s[i], s[j]) {
        if j == |rows| {
          assert s[i] == rows[i] && s[j] == x;
        } else {
          assert s[i] == rows[i] && s[j] == rows[j];
        }
      }
    }
  }

  lemma ConflictBreaksUnique<R>(rows: seq<R>, items: seq<R>, clash: (R, R) -> bool)
    requires |items| > 0 && Conflicts(rows, items[0], clash)
    ensures !Unique(rows + items, clash)
  {
    var i :| 0 <= i < |rows| && clash(rows[i], items[0]);
    var s := rows + items;
    assert s[i] == rows[i] && s[|rows|] == items[0];
  }

  /** Dropping the first row keeps the rest unique */
  lemma UniqueTail<R>(rows: seq<R>, clash: (R, R) -> bool)
    requires Unique(rows, clash) && |rows| > 0
    ensures Unique(rows[1..], clash)
  {
    forall i, j | 0 <= i < j < |rows[1..]| ensures !clash(rows[1..][i], rows[1..][j]) {
      assert rows[1..][i] == rows[i + 1] && rows[1..][j] == rows[j + 1];
    }
  }

  /** The first row clashes with no later one */
  lemma HeadClashesWithNone<R>(rows: seq<R>, clash: (R, R) -> bool)
    requires Unique(rows, clash) && |rows| > 0
    ensures forall x :: x in rows[1..] ==> !clash(rows[0], x)
  {
    forall x | x in rows[1..] ensures !clash(rows[0], x) {
      var j :| 0 <= j < |rows[1..]| && rows[1..][j] == x;
      assert rows[j + 1] == x;
    }
  }

  /** A unique sequence of rows is still unique after keeping only some of
      them, in order, behind a row that clashes with none of them */
  lemma ConsUnique<R>(x: R, rest: seq<R>, clash: (R, R) -> bool)
    requires Unique(rest, clash)
    requires forall y :: y in rest ==> !clash(x, y)
    ensures Unique([x] + rest, clash)
  {
    var s := [x] + rest;
    forall i, j | 0 <= i < j < |s| ensures !clash(s[i], s[j]) {
      assert s[j] == rest[j - 1];
      if i > 0 { assert s[i] == rest[i - 1]; }
    }
  }
}

=== FILE: wrappers.dfy ===
/** Optional values, used wherever the Go code signals "no value" through a
    separate boolean or error that carries no further information. */
module Wrappers {

  datatype Option<+T> = None | Some(value: T) {

    /** Returns the wrapped value, or `default` when there is none */
    function GetOr(default: T): T {
      match this
      case Some(v) => v
      case None => default
    }
  }
}
